=== FILE: README.md ===
# WebCodecs-style encoder and decoder over an external process, in Dafny

This project models the core of a Node.js library that emulates the WebCodecs
API (`VideoFrame`, `EncodedVideoChunk`, `VideoEncoder`, `VideoDecoder`) by
piping bytes through an external ffmpeg process. It covers:

- the two unit types and their validating constructors (`units.dfy`);
- the codec whitelist, the codec-to-compressor map and the spawn defaults
  (`codecs.dfy`);
- the process bridge: an abstract record of one spawned process (bytes
  written to stdin, pieces received on stdout, which streams ended, whether it
  exited) and the stderr failure heuristic (`bridge.dfy`);
- the encoder and decoder state machines, as pure transition functions over
  caller calls (`Configure`, `Encode`/`Decode`, `Flush`, `Close`) and process
  events (stdout data, stdout end, stderr data, process error, exit)
  (`encoder.dfy`, `decoder.dfy`);
- properties of whole runs of calls and events (`encoder_runs.dfy`,
  `decoder_runs.dfy`);
- the JavaScript semantics these rely on: truthiness, `x || d`, the truncating
  `%`, `String.prototype.includes` (`js.dfy`).

Conventions. A JavaScript property is `Option<int>` or `Option<string>`,
`None` standing for an absent property; `0` and `""` are falsy, so a zero
width is rejected while a negative one passes, and a zero bitrate passes
validation and later falls back to 1 000 000. The caller's callbacks are not
code here: each value handed to the output callback is appended to `outputs`,
each error handed to the error callback to `errors`, and whether the output
callback throws for a delivery is a boolean input of the event that delivers.
The race inside `flush` between the process's 'close' event and the
10 000 ms timer is an explicit input (`FlushRace`), not time. `Valid` is the
invariant all reachable states keep: a stored configuration was accepted,
the configured state has one, a spawned encoder backend has a non-zero GOP
size, and a spawned decoder backend has a configuration (the frame built for
each stdout piece reads its coded size). The constructors establish it;
`Configure`, `Encode`/`Decode`, `Flush`, `Close`, the stdout data handlers
and the encoder's end and exit handlers require and preserve it. The remaining event handlers (stderr, process
error, and the decoder's stdout end and exit) change only the error log or
stream flags, which `Valid` does not mention, so they do not state it;
`EncoderRuns.Run` and `DecoderRuns.Run` show that every state reachable by
any mix of calls and events is valid.

Behaviours of the code worth stating plainly, since a reader of the API
might expect otherwise:

- the encoder's chunk carries the timestamp and duration of the frame passed
  to the `encode` call that spawned the process, because the 'end' handler
  closes over that frame (index.js:112-128); with five frames it is the first
  frame's (`FiveFrameScenario`);
- the keyframe test uses the GOP size computed when the process was spawned
  and the frame counter at end of stream (index.js:96, 122); `configure`
  resets the counter (index.js:78), so when stdout ends with no `encode`
  after a re-configure the chunk is 'key' (`ReconfigureThenEndIsKey`), but
  every later `encode` counts again (index.js:151), so one `encode` in
  between makes it 'delta' under the default GOP size of 30
  (`ReconfigureEncodeThenEnd`);
- the stderr test is case sensitive: 'Error' or 'error' matches, 'ERROR'
  alone does not (index.js:139, 246);
- the decoder's `configure` accepts any codec string (index.js:203-213), and
  its stdout handler builds and delivers one frame per piece as it arrives
  (index.js:230-242);
- neither `configure` checks the state, so a closed encoder or decoder can be
  configured again (index.js:60-79, 203-213);
- when the flush inside `close` rejects, `close` only reports and rethrows
  (index.js:184-187, 290-293): the process is not killed and the state stays.

## Model

| member | source | states |
|---|---|---|
| Js.JsRem | index.js:122 | JavaScript's truncating `%`: differs from the dividend by a multiple of the divisor, has the dividend's sign and a magnitude below the divisor's; for a non-negative counter zero exactly when the divisor divides it |
| Js.JsRemUnique | index.js:122 | those clauses pin the value: any number satisfying them is the truncated remainder |
| Js.IncludesIffOccurs | index.js:139 | `includes` holds exactly when the needle occurs at some index of the message |
| Bridge.Write | index.js:150 | a write appends the buffer to stdin after all earlier ones, and is dropped once stdin has ended; nothing else about the process changes |
| Bridge.Receive | index.js:116-118 | a stdout piece is appended in arrival order unless stdout already ended; nothing else changes |
| Bridge.ReportsErrorIff | index.js:139 | the stderr heuristic fires exactly when 'Error' or 'error' occurs somewhere in the message |
| Bridge.ReportsErrorCaseSensitive | index.js:246 | 'ERROR' does not match, any text containing 'error' does |
| Units.NewVideoFrame | index.js:8-26 | accepted iff data is a Buffer, timestamp is a number and both coded dimensions are truthy; the first failing check picks the exception; duration, format and colour space default to 0, 'I420', 'bt709' when falsy |
| Units.FrameRoundTrip | index.js:8-26 | rebuilding an open frame from its own buffer and properties yields the same frame |
| Units.Close | index.js:28-30 | closing nulls the buffer and keeps every other property |
| Units.CloseIdempotent | index.js:28-30 | closing twice equals closing once, keeps the frame's shape, and erases exactly the difference in buffers |
| Units.NewEncodedChunk | index.js:34-43 | accepted iff type is truthy and data present (an empty Buffer counts); byteLength is the data length; timestamp and duration default to 0 |
| Units.ChunkRoundTrip | index.js:34-43 | rebuilding a chunk from its own properties yields the same chunk |
| Units.FlattenAppend | index.js:127 | concatenating piece lists concatenates their bytes, and the length is the sum of piece lengths |
| Units.ConcatBuffers | index.js:127 | `Buffer.concat` as a loop yields the in-order concatenation of the pieces |
| Codecs.CompressorName | index.js:86-95 | whitelisted codecs map to libvpx, libvpx-vp9 (vp9, vp09), libx264 (avc1, h264), libaom-av1, each iff in its family; others pass through unchanged |
| Encoder.NewEncoder | index.js:47-58 | construction succeeds iff an output callback is given, into the unconfigured state with no process and a zero counter |
| Encoder.CheckConfig | index.js:61-75 | passes iff the configuration is acceptable (codec, truthy width/height, no negative bitrate, whitelisted codec); codec, size, bitrate and whitelist errors in that order |
| Encoder.Configure | index.js:60-79 | a rejected configure changes nothing; an accepted one sets 'configured', replaces config, resets the counter and keeps a spawned process |
| Encoder.ParamsOf | index.js:95-106 | spawn parameters: mapped compressor, the dimensions, bitrate defaulting to 1 000 000 and GOP to 30 when falsy; bitrate positive, GOP non-zero |
| Encoder.Encode | index.js:81-155 | throws and changes nothing unless configured; spawns only when no process exists, freezing parameters and the frame; appends the buffer to stdin and counts it; a closed frame's write error goes to the error channel uncounted |
| Encoder.ChunkKind | index.js:122-124 | 'key' iff the counter is a multiple of the interval, 'delta' otherwise |
| Encoder.OutputChunk | index.js:120-128 | the chunk holds all stdout pieces in arrival order, the byte length, the spawning frame's timestamp and duration, and the keyframe classification |
| Encoder.OnStdoutData | index.js:116-118 | a stdout piece is kept and nothing is delivered |
| Encoder.OnStdoutEnd | index.js:120-135 | the first end delivers one chunk iff a piece arrived, a throwing callback is reported; later ends deliver nothing |
| Encoder.OnStderr | index.js:137-142 | a diagnostic is reported iff the heuristic matches; nothing else changes |
| Encoder.OnProcessError | index.js:144-146 | a process error is reported; nothing else changes |
| Encoder.OnExit | index.js:169-172 | the exit follows the end of stdout, so it delivers what the end would and marks the process exited |
| Encoder.Flush | index.js:157-174 | resolves at once without a process; otherwise ends stdin and resolves iff the process closes before the timer (a process already closed can only time out); on timeout only stdin has ended and nothing else changes; on success all streams ended and a pending chunk was delivered, a throwing callback reported |
| Encoder.Close | index.js:176-188 | a resolving flush leaves 'closed' with no process, after delivering the pending chunk; a rejecting one reports and rethrows the timeout, keeping state and the same process with stdin ended; without a process it only sets 'closed' |
| Decoder.NewDecoder | index.js:192-201 | construction succeeds iff an output callback is given, into the unconfigured state with no process |
| Decoder.CheckConfig | index.js:204-209 | passes iff codec, codedWidth and codedHeight are truthy, with no whitelist; codec error before size error |
| Decoder.Configure | index.js:203-213 | a rejected configure changes nothing; an accepted one sets 'configured', replaces config and keeps a spawned process |
| Decoder.Decode | index.js:215-261 | throws and changes nothing unless configured; any argument is accepted; spawns only when no process exists, capturing the argument's timestamp and duration (possibly absent); writes its Buffer, or reports the write error when it has none |
| Decoder.FrameForSucceeds | index.js:230-237 | under an accepted configuration the frame constructor throws iff the captured timestamp is missing ('timestamp is required'); otherwise the frame has the piece, the captured timestamp, the duration or 0, and the configured size |
| Decoder.OnStdoutData | index.js:230-242 | on an open stdout each piece delivers one frame at once iff a timestamp was captured, a throwing callback is reported; otherwise the constructor's error is reported and nothing delivered |
| Decoder.OnStdoutEnd | index.js:227-254 | the decoder registers no end handler: nothing is delivered or reported |
| Decoder.OnStderr | index.js:244-249 | a diagnostic is reported iff the heuristic matches |
| Decoder.OnProcessError | index.js:251-253 | a process error is reported |
| Decoder.OnExit | index.js:275-278 | the exit ends stdout and marks the process exited without delivering |
| Decoder.Flush | index.js:263-280 | resolves at once without a process; otherwise ends stdin and resolves iff the process closes before the timer; on timeout only stdin has ended, so the captured stamps and pieces stay; on success all streams ended |
| Decoder.Close | index.js:282-294 | a resolving flush leaves 'closed' with no process; a rejecting one reports and rethrows, keeping state and the same process with stdin ended |
| EncoderRuns.Run | index.js:46-189 | every encoder reachable by any sequence of calls and events keeps the invariant |
| EncoderRuns.EncodeGuard | index.js:82-84 | any number of `encode` calls outside 'configured' leave the encoder unchanged: no spawn, no write, no count |
| EncoderRuns.CloseIsFinal | index.js:176-188 | after a successful close `encode` throws and a second close resolves without output |
| EncoderRuns.EncodesAppendInOrder | index.js:149-154 | while stdin is open, a run of encodes of open frames appends their buffers to stdin in call order, grows the counter by the number of frames and emits and reports nothing |
| EncoderRuns.EncodesSpawnOnce | index.js:112-113 | in a run of encodes an existing process keeps its parameters, captured frame and output; without one the first encode spawns it from the configuration and the first frame |
| EncoderRuns.ApplyKeepsBackend | index.js:60-188 | no call but close drops or replaces a spawned process or changes what it captured |
| EncoderRuns.BackendFrozenBetweenCloses | index.js:112-113 | between closes, whatever happens, a spawned process keeps the parameters and frame frozen when it was spawned |
| EncoderRuns.ApplyKeepsBudget | index.js:120-135 | no single call except close removes a chunk or lets one process emit twice |
| EncoderRuns.AtMostOneChunkBetweenCloses | index.js:112-135 | between closes at most one chunk is emitted, none once the current process's stdout ended, and earlier chunks stay |
| EncoderRuns.EndOfStreamChunk | index.js:120-135 | stdout end emits exactly one chunk iff a piece arrived, with the pieces in order, the spawning frame's stamps and 'key' iff the counter is a multiple of the frozen interval |
| EncoderRuns.ReconfigureThenEndIsKey | index.js:120-125 | when stdout ends with no `encode` after a re-configure of a spawned encoder, the delivered chunk is 'key' and keeps the first frame's timestamp |
| EncoderRuns.ReconfigureEncodeThenEnd | index.js:78-151 | one `encode` between the re-configure and stdout end brings the counter to 1, so the chunk is 'key' iff the GOP size divides 1, and 'delta' under the default of 30 |
| EncoderRuns.ConfigureExamples | test-codecs.js:58-100 | 'invalid' codec and missing size are rejected, 10 Mbps accepted; zero width rejected, negative width accepted, zero bitrate defaults |
| EncoderRuns.FiveFrameScenario | test-codecs.js:18-37 | five frames then close emit exactly one 'delta' chunk holding the output, stamped with the first frame |
| DecoderRuns.Run | index.js:191-295 | every decoder reachable by any sequence of calls and events keeps the invariant |
| DecoderRuns.DecodeGuard | index.js:216-218 | any number of `decode` calls outside 'configured' leave the decoder unchanged |
| DecoderRuns.CloseIsFinal | index.js:282-294 | after a successful close `decode` throws and a second close resolves without output |
| DecoderRuns.DecodesAppendInOrder | index.js:227-260 | while stdin is open, a run of decodes of Buffers spawns at most once, capturing the first argument's stamps, and stdin gets the buffers in call order; nothing is delivered or reported |
| DecoderRuns.ApplyKeepsBackend | index.js:203-294 | no call but close drops or replaces a spawned process or changes the stamps it captured |
| DecoderRuns.BackendFrozenBetweenCloses | index.js:227-237 | between closes, whatever happens, a spawned process keeps the stamps captured when it was spawned |
| DecoderRuns.OneFramePerPiece | index.js:230-242 | with a timestamp captured, the pieces on an open stdout become exactly the frames `Frames` builds, in arrival order; no error |
| DecoderRuns.FramesAt | index.js:230-237 | the i-th of those frames is the one built from the i-th piece, with the spawning stamps and the current coded size |
| DecoderRuns.PiecesReceivedInOrder | index.js:230-242 | pieces on an open stdout are kept in arrival order; the captured stamps, stdin, configuration and state stay |
| DecoderRuns.NoFrameWithoutTimestamp | index.js:230-241 | without a captured timestamp no piece becomes a frame: each reports 'timestamp is required' |
| DecoderRuns.SingleChunkScenario | example-decode.js:24-37 | a VP8 640x480 decoder fed one chunk stamped 0, when the process prints one stdout piece, yields one 640x480 frame stamped 0 (the decoder delivers one frame per stdout piece, not per chunk) |

## Left out

- Process plumbing: `spawn`, the ffmpeg binary path and the literal argument
  lists (raw format, pixel format, frame rate 30, container) are not modelled;
  the spawn parameters keep only the compressor, size, bitrate and GOP size.
- Stream semantics: backpressure, and Node event-loop timing. Writing after
  `stdin.end()`, or to the stdin of a process that has already exited, does not
  throw synchronously; Node raises an asynchronous stream error instead, which
  is not modelled: the model records the write as dropped (after `end`) or
  appended (after exit) and still counts the frame, as the synchronous code
  does.
- Time: the 10 000 ms flush timer is the `FlushRace` input. Overlapping,
  still-pending `flush` or `close` promises are not modelled; each call
  settles atomically.
- The default error callback `(e) => { throw e; }`: errors are appended to the
  error log; rethrowing them into the event loop or out of `encode` is not
  modelled.
- JavaScript values other than integers, strings and Buffers: fractional
  numbers, NaN, Infinity, and properties holding a value of another type
  (for instance a string bitrate compared with `<= 0`, or chunk data given as a
  string). Object-prototype keys in the codec map lookup are not modelled;
  configure rejects every codec outside the table first.
- The frame object captured by the encoder's end handler is a reference; a
  caller mutating its timestamp later is not modelled (closing it does not
  change the timestamp).
- Encoder.ParamsOf: `configure` stores the caller's configuration object by
  reference (index.js:76) and the spawning `encode` reads it then
  (index.js:95-106), so a caller who changes `codec` or `bitrate` between
  `configure` and the first `encode` makes the process spawn with an
  unvalidated compressor or bitrate; the model stores the configuration by
  value, so `compressor != codec` and `bitrate > 0` hold only for a
  configuration nobody mutates after `configure`.
- DecoderRuns.BackendFrozenBetweenCloses: the stdout handler reads
  `timestamp` and `duration` from the spawning call's argument object at every
  piece (index.js:233-234), so a caller who reuses and mutates that object
  gets its current stamps on later frames; the model captures the stamps by
  value at spawn, so the lemma holds for arguments nobody mutates.
- Encoder.Encode: the argument is always a `VideoFrame`. `encode(null)` or
  `encode()` is not modelled: its write error is caught (index.js:149-154),
  but if it spawned the process, reading `frame.timestamp` at stdout end
  (index.js:125) throws outside the try of index.js:129-133, an uncaught
  exception the model cannot express.
- The `options` argument of `encode` (the key-frame hint), which the code
  ignores, and the unused `encodeQueue` field.
- Stderr bytes are given as an already-decoded string.
- Js.JsRem: the zero-iff-divisible clause is stated for non-negative
  dividends only, because the only dividend in the code is the frame counter,
  which is never negative; the value itself is fixed for every dividend by the
  other clauses (`JsRemUnique`).
- Decoder.OnStdoutData: `configure` stores the caller's configuration object
  by reference, so a caller who later sets `codedWidth` or `codedHeight` to a
  falsy value makes every later frame constructor throw 'codedWidth and
  codedHeight are required'; the model stores the configuration by value, so
  that route is not reachable. The missing-timestamp route is modelled. A
  `decode` argument that is not an object at all (`null`) is not modelled
  either.
- The HTTP server, the demo, decode-example and stress-test scripts and the
  test script as code (file and console I/O; the stress test also uses
  floating-point timestamps).

=== FILE: bridge.dfy ===
/** The pipe bridge to the external codec process, as seen by the encoder and
    decoder: the lifecycle both state machines share, an abstract record of
    one spawned process, and the stderr failure heuristic. The process itself
    (its arguments, its pixels, its timing) is outside the model; what is
    kept is what the wrapper can observe: the bytes it wrote to stdin, the
    pieces that arrived on stdout, and which streams have ended. */
module Bridge {
  import opened Js
  import opened Units

  /** `this.state`: 'unconfigured', 'configured' or 'closed'. */
  datatype Lifecycle = Unconfigured | Configured | Closed

  /** How the race inside `flush` ends: the process emits 'close' before the
      10 000 ms timer fires, or the timer fires first. */
  datatype FlushRace = ProcessCloses | TimerFires

  /** One spawned backend process. */
  datatype Process = Process(
    stdin: seq<Bytes>,    // buffers written to stdin, in call order
    stdout: seq<Bytes>,   // pieces received on stdout, in arrival order
    stdinEnded: bool,     // `stdin.end()` has been called
    stdoutEnded: bool,    // stdout has emitted 'end'
    exited: bool)         // the process has emitted 'close'

  /** A process just returned by `spawn`. */
  const Spawned: Process := Process([], [], false, false, false)

  /** `stdin.write(data)`. Writing after `stdin.end()` does not throw in
      Node; the bytes never reach the process. */
  function Write(p: Process, data: Bytes): (q: Process)
    ensures q.stdin == if p.stdinEnded then p.stdin else p.stdin + [data]
    ensures q.(stdin := p.stdin) == p
  {
    if p.stdinEnded then p else p.(stdin := p.stdin + [data])
  }

  /** A 'data' event on stdout. No data follows 'end'. */
  function Receive(p: Process, piece: Bytes): (q: Process)
    ensures q.stdout == if p.stdoutEnded then p.stdout else p.stdout + [piece]
    ensures q.(stdout := p.stdout) == p
  {
    if p.stdoutEnded then p else p.(stdout := p.stdout + [piece])
  }

  /** The stderr heuristic of both state machines: a diagnostic is treated
      as a failure when it contains 'Error' or 'error'. The match is case
      sensitive, so 'ERROR' alone does not count. */
  predicate ReportsError(msg: string) {
    Includes(msg, "Error") || Includes(msg, "error")
  }

  /** The heuristic fires exactly when one of the two spellings occurs at
      some position of the message. */
  lemma ReportsErrorIff(msg: string)
    ensures ReportsError(msg) <==>
              (exists i :: OccursAt(msg, "Error", i)) || (exists i :: OccursAt(msg, "error", i))
  {
    IncludesIffOccurs(msg, "Error");
    IncludesIffOccurs(msg, "error");
  }

  /** Upper-case 'ERROR' does not trip the heuristic, while any text that
      contains the lower-case spelling does. */
  lemma ReportsErrorCaseSensitive(prefix: string, suffix: string)
    ensures !ReportsError("ERROR")
    ensures ReportsError(prefix + "error" + suffix)
  {
    assert "ERROR"[..5] != "Error" by { assert "ERROR"[1] != "Error"[1]; }
    assert "ERROR"[..5] != "error" by { assert "ERROR"[0] != "error"[0]; }
    assert !Includes("ERROR"[1..], "Error") && !Includes("ERROR"[1..], "error");
    ReportsErrorIff(prefix + "error" + suffix);
    var m := prefix + "error" + suffix;
    assert m[|prefix|..|prefix| + 5] == "error";
    assert OccursAt(m, "error", |prefix|);
  }
}

=== FILE: codecs.dfy ===
/** The encoder's codec whitelist, the map from codec identifiers to backend
    compressor names, and the defaults used when the backend is spawned. */
module Codecs {

  /** `validCodecs` in `configure`, in source order. */
  const SupportedCodecs: seq<string> := ["vp8", "vp09", "vp9", "avc1", "h264", "av01"]

  const DefaultBitrate: int := 1000000
  const DefaultKeyframeInterval: int := 30

  /** `codecMap[codec] || codec`: the compressor the backend is asked to
      use. Over the whitelist the table groups identifiers into four
      families (two share the VP9 compressor, two share the H.264 one, VP8
      and AV1 stand alone) and never echoes the identifier; outside it the
      identifier is passed through unchanged. */
  function CompressorName(codec: string): (name: string)
    ensures codec in SupportedCodecs ==> (name == "libvpx" <==> codec == "vp8")
    ensures codec in SupportedCodecs ==> (name == "libvpx-vp9" <==> codec == "vp9" || codec == "vp09")
    ensures codec in SupportedCodecs ==> (name == "libx264" <==> codec == "avc1" || codec == "h264")
    ensures codec in SupportedCodecs ==> (name == "libaom-av1" <==> codec == "av01")
    ensures codec in SupportedCodecs ==> name != codec
    ensures codec !in SupportedCodecs ==> name == codec
  {
    match codec
    case "vp8" => "libvpx"
    case "vp09" => "libvpx-vp9"
    case "vp9" => "libvpx-vp9"
    case "avc1" => "libx264"
    case "av01" => "libaom-av1"
    case "h264" => "libx264"
    case _ => codec
  }
}

=== FILE: decoder.dfy ===
/** `VideoDecoder`: the same three-state machine as the encoder, with a
    lighter configuration check (no codec whitelist) and a different output
    path: every piece the process prints on stdout becomes one raw frame,
    delivered as soon as it arrives.

    As for the encoder, frames handed to the output callback are appended to
    `outputs` and errors handed to the error callback to `errors`. */
module Decoder {
  import opened Js
  import opened Errors
  import opened Units
  import opened Bridge

  /** The dictionary passed to `configure`. */
  datatype Config = Config(
    codec: Option<string>,
    codedWidth: Option<int>,
    codedHeight: Option<int>)

  /** The argument of `decode`. The method checks nothing about it and
      reads only its `timestamp`, `duration` and `data`, so any object will
      do, not only an `EncodedVideoChunk`: `None` stands for a property that
      is absent (for `timestamp`, also one that is not a number, and for
      `data`, one that is not a Buffer). The stamps are taken as they are
      when the backend is spawned; the code rereads them from the same
      object at every stdout piece, which agrees as long as the caller does
      not mutate it. */
  datatype ChunkArg = ChunkArg(
    timestamp: Option<int>,
    duration: Option<int>,
    data: Option<Bytes>)

  /** An `EncodedVideoChunk` seen as a `decode` argument. */
  function ArgOf(c: EncodedChunk): (a: ChunkArg)
    ensures a.timestamp == Some(c.timestamp) && a.duration == Some(c.duration)
    ensures a.data == Some(c.data)
  {
    ChunkArg(Some(c.timestamp), Some(c.duration), Some(c.data))
  }

  /** A spawned process together with the timestamp and duration of the
      argument passed to the spawning `decode` call (the handler closes over
      that argument). */
  datatype Backend = Backend(
    proc: Process,
    timestamp: Option<int>,
    duration: Option<int>)

  datatype Decoder = Decoder(
    state: Lifecycle,
    config: Option<Config>,
    backend: Option<Backend>,
    outputs: seq<VideoFrame>,
    errors: seq<Error>)

  /** A configuration `configure` accepts: any non-empty codec string and
      truthy coded dimensions. */
  predicate Acceptable(c: Config) {
    TruthyStr(c.codec) && TruthyNum(c.codedWidth) && TruthyNum(c.codedHeight)
  }

  /** What every reachable decoder satisfies. */
  predicate Valid(d: Decoder) {
    && (d.config.Some? ==> Acceptable(d.config.value))
    && (d.state == Configured ==> d.config.Some?)
    && (d.backend.Some? ==> d.config.Some?)
  }

  /** `new VideoDecoder(init)`: only the presence of an output callback is
      checked. */
  function NewDecoder(hasOutputCallback: bool): (r: Result<Decoder>)
    ensures r.Success? <==> hasOutputCallback
    ensures r.Failure? ==> r.error == OutputCallbackRequired
    ensures r.Success? ==> Valid(r.value) && r.value.state == Unconfigured
    ensures r.Success? ==> r.value.backend.None? && r.value.outputs == [] && r.value.errors == []
  {
    if hasOutputCallback then Success(Decoder(Unconfigured, None, None, [], []))
    else Failure(OutputCallbackRequired)
  }

  /** The validation in `configure`: codec present, then coded dimensions
      truthy. Any codec string is accepted. */
  function CheckConfig(c: Option<Config>): (r: Outcome)
    ensures r.Pass? <==> c.Some? && Acceptable(c.value)
    ensures c.None? || !TruthyStr(c.value.codec) ==> r == Fail(CodecRequired)
    ensures c.Some? && TruthyStr(c.value.codec)
            && !(TruthyNum(c.value.codedWidth) && TruthyNum(c.value.codedHeight))
            ==> r == Fail(CodedSizeRequired)
  {
    if c.None? || !TruthyStr(c.value.codec) then Fail(CodecRequired)
    else if !TruthyNum(c.value.codedWidth) || !TruthyNum(c.value.codedHeight) then Fail(CodedSizeRequired)
    else Pass
  }

  /** `decoder.configure(config)`. A rejected configuration changes nothing;
      an accepted one enters the configured state and replaces the
      configuration, keeping any spawned backend. */
  function Configure(d: Decoder, c: Option<Config>): (r: (Decoder, Outcome))
    requires Valid(d)
    ensures Valid(r.0)
    ensures r.1 == CheckConfig(c)
    ensures r.1.Fail? ==> r.0 == d
    ensures r.1.Pass? ==> r.0.state == Configured && r.0.config == c
    ensures r.1.Pass? ==> r.0.backend == d.backend && r.0.outputs == d.outputs && r.0.errors == d.errors
  {
    var outcome := CheckConfig(c);
    if outcome.Fail? then (d, outcome)
    else (d.(config := c, state := Configured), Pass)
  }

  /** `decoder.decode(chunk)`. Outside the configured state it throws and
      changes nothing. Otherwise it spawns the backend if there is none,
      capturing this argument's timestamp and duration, and writes its
      bytes to stdin. Without a Buffer, `stdin.write` throws and the
      exception goes to the error callback. */
  function Decode(d: Decoder, chunk: ChunkArg): (r: (Decoder, Outcome))
    requires Valid(d)
    ensures Valid(r.0)
    ensures d.state != Configured ==> r == (d, Fail(DecoderNotConfigured))
    ensures d.state == Configured ==>
              && r.1 == Pass
              && r.0.state == d.state && r.0.config == d.config
              && r.0.outputs == d.outputs
              && r.0.backend.Some?
    ensures d.state == Configured && d.backend.Some? ==>
              && r.0.backend.value.timestamp == d.backend.value.timestamp
              && r.0.backend.value.duration == d.backend.value.duration
    ensures d.state == Configured && d.backend.None? ==>
              && r.0.backend.value.timestamp == chunk.timestamp
              && r.0.backend.value.duration == chunk.duration
    ensures d.state == Configured && chunk.data.Some? ==>
              var before := if d.backend.Some? then d.backend.value.proc else Spawned;
              && r.0.backend.value.proc == Write(before, chunk.data.value)
              && r.0.errors == d.errors
    ensures d.state == Configured && chunk.data.None? ==>
              var before := if d.backend.Some? then d.backend.value.proc else Spawned;
              && r.0.backend.value.proc == before
              && r.0.errors == d.errors + [WriteFailed]
  {
    if d.state != Configured then (d, Fail(DecoderNotConfigured))
    else
      var b := if d.backend.Some? then d.backend.value else Backend(Spawned, chunk.timestamp, chunk.duration);
      match chunk.data
      case None => (d.(backend := Some(b), errors := d.errors + [WriteFailed]), Pass)
      case Some(bytes) => (d.(backend := Some(b.(proc := Write(b.proc, bytes)))), Pass)
  }

  // ------------------------------------------------------- process events

  /** The frame built for one stdout piece: the piece as its buffer, the
      captured timestamp and duration, and the coded size of the
      configuration in force when the piece arrives. */
  function FrameFor(b: Backend, c: Config, piece: Bytes): Result<VideoFrame> {
    NewVideoFrame(Some(piece), Some(FrameInit(b.timestamp, b.duration,
                                              c.codedWidth, c.codedHeight, None, None)))
  }

  /** Under an accepted configuration the frame constructor throws exactly
      when the spawning argument had no numeric timestamp, and otherwise the
      frame carries exactly the promised values. */
  lemma FrameForSucceeds(b: Backend, c: Config, piece: Bytes)
    requires Acceptable(c)
    ensures FrameFor(b, c, piece).Success? <==> b.timestamp.Some?
    ensures b.timestamp.None? ==> FrameFor(b, c, piece) == Failure(TimestampRequired)
    ensures b.timestamp.Some? ==>
              var f := FrameFor(b, c, piece).value;
              && f.data == Some(piece)
              && f.timestamp == b.timestamp.value && f.duration == NumOr(b.duration, 0)
              && f.codedWidth == c.codedWidth.value && f.codedHeight == c.codedHeight.value
              && f.format == DefaultFormat && f.colorSpace == DefaultColorSpace
  {
  }

  /** A stdout 'data' event: one frame per piece, delivered at once. A
      constructor failure or a throwing callback is reported to the error
      callback. */
  function OnStdoutData(d: Decoder, piece: Bytes, callbackThrows: bool): (r: Decoder)
    requires Valid(d)
    ensures Valid(r)
    ensures r.state == d.state && r.config == d.config
    ensures r.backend.Some? <==> d.backend.Some?
    ensures d.backend.Some? ==>
              r.backend.value == d.backend.value.(proc := Receive(d.backend.value.proc, piece))
    // a frame is delivered exactly when stdout is open and the spawning
    // argument had a timestamp
    ensures |r.outputs| == |d.outputs| + 1 <==> Live(d) && d.backend.value.timestamp.Some?
    ensures Live(d) && d.backend.value.timestamp.Some? ==>
              && r.outputs == d.outputs + [FrameFor(d.backend.value, d.config.value, piece).value]
              && r.errors == d.errors + (if callbackThrows then [OutputCallbackThrew] else [])
    // otherwise the constructor's exception is reported and nothing is delivered
    ensures Live(d) && d.backend.value.timestamp.None? ==>
              r.outputs == d.outputs && r.errors == d.errors + [TimestampRequired]
    ensures !Live(d) ==> r.outputs == d.outputs && r.errors == d.errors
  {
    match d.backend
    case None => d
    case Some(b) =>
      if b.proc.stdoutEnded then d
      else
        var d' := d.(backend := Some(b.(proc := Receive(b.proc, piece))));
        match FrameFor(b, d.config.value, piece)
        case Failure(err) => d'.(errors := d.errors + [err])
        case Success(f) =>
          d'.(outputs := d.outputs + [f],
              errors := d.errors + if callbackThrows then [OutputCallbackThrew] else [])
  }

  /** A process is attached and its stdout is still open. */
  predicate Live(d: Decoder) {
    d.backend.Some? && !d.backend.value.proc.stdoutEnded
  }

  /** A stdout 'end' event: the decoder has no handler for it. */
  function OnStdoutEnd(d: Decoder): (r: Decoder)
    ensures r.outputs == d.outputs && r.errors == d.errors && r.state == d.state && r.config == d.config
    ensures r.backend.Some? <==> d.backend.Some?
    ensures d.backend.Some? ==>
              r.backend.value == d.backend.value.(proc := d.backend.value.proc.(stdoutEnded := true))
  {
    match d.backend
    case None => d
    case Some(b) => d.(backend := Some(b.(proc := b.proc.(stdoutEnded := true))))
  }

  /** A stderr 'data' event: reported when the heuristic matches. */
  function OnStderr(d: Decoder, msg: string): (r: Decoder)
    ensures r.(errors := d.errors) == d
    ensures r.errors == d.errors + (if d.backend.Some? && ReportsError(msg) then [Diagnostic(msg)] else [])
  {
    if d.backend.Some? && ReportsError(msg) then d.(errors := d.errors + [Diagnostic(msg)]) else d
  }

  /** The process 'error' event. */
  function OnProcessError(d: Decoder): (r: Decoder)
    ensures r.(errors := d.errors) == d
    ensures r.errors == d.errors + (if d.backend.Some? then [ProcessFailed] else [])
  {
    if d.backend.Some? then d.(errors := d.errors + [ProcessFailed]) else d
  }

  /** The process 'close' event, which follows the end of stdout. */
  function OnExit(d: Decoder): (r: Decoder)
    ensures r.outputs == d.outputs && r.errors == d.errors && r.state == d.state && r.config == d.config
    ensures r.backend.Some? <==> d.backend.Some?
    ensures d.backend.Some? ==>
              r.backend.value == d.backend.value.(proc := d.backend.value.proc.(stdoutEnded := true, exited := true))
  {
    match d.backend
    case None => d
    case Some(b) => d.(backend := Some(b.(proc := b.proc.(stdoutEnded := true, exited := true))))
  }

  // ------------------------------------------------------ flush and close

  /** `decoder.flush()`: as for the encoder, resolves at once without a
      process, and otherwise ends stdin and resolves only if the process
      emits 'close' before the timer fires. */
  function Flush(d: Decoder, race: FlushRace): (r: (Decoder, Outcome))
    requires Valid(d)
    ensures Valid(r.0)
    ensures r.0.state == d.state && r.0.config == d.config
    ensures r.0.outputs == d.outputs && r.0.errors == d.errors
    ensures d.backend.None? ==> r == (d, Pass)
    ensures r.1.Pass? <==> d.backend.None? || (race == ProcessCloses && !d.backend.value.proc.exited)
    ensures r.1.Fail? ==> r.1.error == FlushTimeout
    // on a timeout only stdin has ended: the captured stamps and the pieces
    // stay, and later pieces still become frames
    ensures d.backend.Some? && r.1.Fail? ==>
              r.0.backend == Some(d.backend.value.(proc := d.backend.value.proc.(stdinEnded := true)))
    ensures d.backend.Some? && r.1.Pass? ==>
              r.0.backend == Some(d.backend.value.(proc := d.backend.value.proc.(
                                    stdinEnded := true, stdoutEnded := true, exited := true)))
  {
    match d.backend
    case None => (d, Pass)
    case Some(b) =>
      var d1 := d.(backend := Some(b.(proc := b.proc.(stdinEnded := true))));
      if race == ProcessCloses && !b.proc.exited then (OnExit(d1), Pass)
      else (d1, Fail(FlushTimeout))
  }

  /** `decoder.close()`: kill, drop the process and close when the flush
      resolves; otherwise report, rethrow, and keep state and process, with
      stdin ended. */
  function Close(d: Decoder, race: FlushRace): (r: (Decoder, Outcome))
    requires Valid(d)
    ensures Valid(r.0)
    ensures r.1 == Flush(d, race).1
    ensures r.0.config == d.config && r.0.outputs == d.outputs
    ensures r.1.Pass? ==> r.0.state == Closed && r.0.backend.None? && r.0.errors == d.errors
    ensures r.1.Fail? ==>
              && r.0.state == d.state
              && r.0.backend == Some(d.backend.value.(proc := d.backend.value.proc.(stdinEnded := true)))
              && r.0.errors == d.errors + [FlushTimeout]
    ensures d.backend.None? ==> r == (d.(state := Closed), Pass)
  {
    var (d1, outcome) := Flush(d, race);
    if outcome.Pass? then (d1.(backend := None, state := Closed), Pass)
    else (d1.(errors := d1.errors + [outcome.error]), outcome)
  }
}

=== FILE: decoder_runs.dfy ===
/** Properties of whole interactions with one decoder. */
module DecoderRuns {
  import opened Js
  import opened Errors
  import opened Units
  import opened Bridge
  import D = Decoder

  /** Everything that can happen to a decoder: a call by its owner or an
      event from its backend process. */
  datatype Call =
    | Configure(config: Option<D.Config>)
    | Decode(chunk: D.ChunkArg)
    | Flush(race: FlushRace)
    | Close(race: FlushRace)
    | StdoutData(piece: Bytes, callbackThrows: bool)
    | StdoutEnd
    | Stderr(msg: string)
    | ProcessError
    | Exit

  function Apply(d: D.Decoder, call: Call): (r: D.Decoder)
    requires D.Valid(d)
    ensures D.Valid(r)
  {
    match call
    case Configure(c) => D.Configure(d, c).0
    case Decode(chunk) => D.Decode(d, chunk).0
    case Flush(race) => D.Flush(d, race).0
    case Close(race) => D.Close(d, race).0
    case StdoutData(p, t) => D.OnStdoutData(d, p, t)
    case StdoutEnd => D.OnStdoutEnd(d)
    case Stderr(m) => D.OnStderr(d, m)
    case ProcessError => D.OnProcessError(d)
    case Exit => D.OnExit(d)
  }

  /** The decoder after every call of `calls`, first to last. */
  function Run(d: D.Decoder, calls: seq<Call>): (r: D.Decoder)
    requires D.Valid(d)
    ensures D.Valid(r)
    decreases |calls|
  {
    if |calls| == 0 then d else Run(Apply(d, calls[0]), calls[1..])
  }

  /** One stdout 'data' event per piece, none of whose deliveries throws. */
  function DataEvents(pieces: seq<Bytes>): (calls: seq<Call>)
    ensures |calls| == |pieces|
  {
    if |pieces| == 0 then [] else [StdoutData(pieces[0], false)] + DataEvents(pieces[1..])
  }

  /** One `decode` call per argument, in order. */
  function DecodeCalls(chunks: seq<D.ChunkArg>): (calls: seq<Call>)
    ensures |calls| == |chunks|
  {
    if |chunks| == 0 then [] else [Decode(chunks[0])] + DecodeCalls(chunks[1..])
  }

  /** The buffers of arguments that all hold one. */
  function DataOf(chunks: seq<D.ChunkArg>): seq<Bytes>
    requires forall i :: 0 <= i < |chunks| ==> chunks[i].data.Some?
  {
    if |chunks| == 0 then [] else [chunks[0].data.value] + DataOf(chunks[1..])
  }

  /** What stdin has received so far (nothing when there is no process). */
  function StdinOf(d: D.Decoder): seq<Bytes> {
    if d.backend.Some? then d.backend.value.proc.stdin else []
  }

  /** Outside the configured state any number of `decode` calls changes
      nothing: no process is spawned and nothing is written. */
  lemma {:induction false} DecodeGuard(d: D.Decoder, chunks: seq<D.ChunkArg>)
    requires D.Valid(d) && d.state != Configured
    ensures Run(d, DecodeCalls(chunks)) == d
    decreases |chunks|
  {
    if |chunks| > 0 {
      assert DecodeCalls(chunks)[1..] == DecodeCalls(chunks[1..]);
      DecodeGuard(d, chunks[1..]);
    }
  }

  /** A successful close is final for `decode`, and a second close resolves
      without spawning or emitting anything. */
  lemma CloseIsFinal(d: D.Decoder, race: FlushRace, chunk: D.ChunkArg, race': FlushRace)
    requires D.Valid(d) && D.Close(d, race).1.Pass?
    ensures var c := D.Close(d, race).0;
              && c.state == Closed && c.backend.None?
              && D.Decode(c, chunk) == (c, Fail(DecoderNotConfigured))
              && D.Close(c, race') == (c, Pass)
  {
  }

  /** A single call other than `close` never drops or replaces a spawned
      backend: the stamps it captured stay. */
  lemma ApplyKeepsBackend(d: D.Decoder, call: Call)
    requires D.Valid(d) && d.backend.Some? && !call.Close?
    ensures var r := Apply(d, call);
              && r.backend.Some?
              && r.backend.value.timestamp == d.backend.value.timestamp
              && r.backend.value.duration == d.backend.value.duration
  {
  }

  /** Between two closes the backend is spawned at most once: whatever
      happens (re-configure, decode, a flush that resolves or times out,
      process events), an existing backend keeps the timestamp and duration
      captured from the argument of the `decode` call that spawned it, so
      every later frame carries them. */
  lemma {:induction false} BackendFrozenBetweenCloses(d: D.Decoder, calls: seq<Call>)
    requires D.Valid(d) && d.backend.Some?
    requires forall i :: 0 <= i < |calls| ==> !calls[i].Close?
    ensures var r := Run(d, calls);
              && r.backend.Some?
              && r.backend.value.timestamp == d.backend.value.timestamp
              && r.backend.value.duration == d.backend.value.duration
    decreases |calls|
  {
    if |calls| > 0 {
      var d1 := Apply(d, calls[0]);
      ApplyKeepsBackend(d, calls[0]);
      BackendFrozenBetweenCloses(d1, calls[1..]);
      RunStep(d, calls);
    }
  }

  /** A run of `decode` calls on a configured decoder, all with a Buffer,
      while stdin is open: the backend is spawned at most once, capturing the
      first argument's timestamp and duration, every buffer reaches stdin in
      call order, and nothing is delivered or reported. */
  lemma {:induction false} DecodesAppendInOrder(d: D.Decoder, chunks: seq<D.ChunkArg>)
    requires D.Valid(d) && d.state == Configured
    requires forall i :: 0 <= i < |chunks| ==> chunks[i].data.Some?
    requires d.backend.None? || !d.backend.value.proc.stdinEnded
    ensures var r := Run(d, DecodeCalls(chunks));
              && r.state == Configured && r.config == d.config
              && r.outputs == d.outputs && r.errors == d.errors
              && StdinOf(r) == StdinOf(d) + DataOf(chunks)
              && (r.backend.Some? <==> d.backend.Some? || |chunks| > 0)
              && (r.backend.Some? ==> !r.backend.value.proc.stdinEnded)
    ensures d.backend.Some? ==>
              var r := Run(d, DecodeCalls(chunks));
              && r.backend.value.timestamp == d.backend.value.timestamp
              && r.backend.value.duration == d.backend.value.duration
              && r.backend.value.proc.stdout == d.backend.value.proc.stdout
              && r.backend.value.proc.stdoutEnded == d.backend.value.proc.stdoutEnded
    ensures d.backend.None? && |chunks| > 0 ==>
              var r := Run(d, DecodeCalls(chunks));
              && r.backend.value.timestamp == chunks[0].timestamp
              && r.backend.value.duration == chunks[0].duration
              && r.backend.value.proc.stdout == [] && !r.backend.value.proc.stdoutEnded
    decreases |chunks|
  {
    if |chunks| > 0 {
      var d1 := D.Decode(d, chunks[0]).0;
      var calls := DecodeCalls(chunks);
      assert calls[0] == Decode(chunks[0]) && calls[1..] == DecodeCalls(chunks[1..]) by {
        assert calls == [Decode(chunks[0])] + DecodeCalls(chunks[1..]);
      }
      RunStep(d, calls);
      ApplyDecode(d, chunks[0]);
      DecodesAppendInOrder(d1, chunks[1..]);
      assert StdinOf(d1) == StdinOf(d) + [chunks[0].data.value];
      assert DataOf(chunks) == [chunks[0].data.value] + DataOf(chunks[1..]);
    }
  }

  /** The frames the pieces become, one per piece and in order, when every
      one is built from the same backend stamps and configuration. */
  function Frames(b: D.Backend, c: D.Config, pieces: seq<Bytes>): (fs: seq<VideoFrame>)
    requires D.Acceptable(c) && b.timestamp.Some?
    ensures |fs| == |pieces|
  {
    if |pieces| == 0 then []
    else
      D.FrameForSucceeds(b, c, pieces[0]);
      [D.FrameFor(b, c, pieces[0]).value] + Frames(b, c, pieces[1..])
  }

  /** The `i`-th frame is the one built from the `i`-th piece. */
  lemma {:induction false} FramesAt(b: D.Backend, c: D.Config, pieces: seq<Bytes>, i: int)
    requires D.Acceptable(c) && b.timestamp.Some? && 0 <= i < |pieces|
    ensures D.FrameFor(b, c, pieces[i]).Success?
    ensures Frames(b, c, pieces)[i] == D.FrameFor(b, c, pieces[i]).value
    decreases i
  {
    D.FrameForSucceeds(b, c, pieces[i]);
    if i > 0 {
      FramesAt(b, c, pieces[1..], i - 1);
      assert pieces[1..][i - 1] == pieces[i];
    }
  }

  /** `Frames` reads only the backend's stamps, not its process. */
  lemma {:induction false} FramesIgnoreProcess(b: D.Backend, p: Process, c: D.Config, pieces: seq<Bytes>)
    requires D.Acceptable(c) && b.timestamp.Some?
    ensures Frames(b.(proc := p), c, pieces) == Frames(b, c, pieces)
    decreases |pieces|
  {
    if |pieces| > 0 {
      FramesIgnoreProcess(b, p, c, pieces[1..]);
      assert D.FrameFor(b.(proc := p), c, pieces[0]) == D.FrameFor(b, c, pieces[0]);
    }
  }

  /** One piece on an open stdout, with a timestamp captured: the piece is
      received and its frame appended, and nothing else changes. */
  lemma DataStep(d: D.Decoder, piece: Bytes)
    requires D.Valid(d) && D.Live(d) && d.backend.value.timestamp.Some?
    ensures D.FrameFor(d.backend.value, d.config.value, piece).Success?
    ensures var b := d.backend.value;
            D.OnStdoutData(d, piece, false) ==
              d.(backend := Some(b.(proc := b.proc.(stdout := b.proc.stdout + [piece]))),
                 outputs := d.outputs + [D.FrameFor(b, d.config.value, piece).value])
  {
    D.FrameForSucceeds(d.backend.value, d.config.value, piece);
  }

  /** Running the events of several pieces is handling the first piece and
      then running the rest. */
  lemma RunDataCons(d: D.Decoder, pieces: seq<Bytes>)
    requires D.Valid(d) && |pieces| > 0
    ensures Run(d, DataEvents(pieces)) == Run(D.OnStdoutData(d, pieces[0], false), DataEvents(pieces[1..]))
  {
    var calls := DataEvents(pieces);
    assert calls[0] == StdoutData(pieces[0], false) && calls[1..] == DataEvents(pieces[1..]) by {
      assert calls == [StdoutData(pieces[0], false)] + DataEvents(pieces[1..]);
    }
    RunStep(d, calls);
    ApplyData(d, pieces[0], false);
  }

  /** A `decode` call is handled by `Decoder.Decode`. */
  lemma ApplyDecode(d: D.Decoder, chunk: D.ChunkArg)
    requires D.Valid(d)
    ensures Apply(d, Decode(chunk)) == D.Decode(d, chunk).0
  {
  }

  /** A stdout piece event is handled by `Decoder.OnStdoutData`. */
  lemma ApplyData(d: D.Decoder, piece: Bytes, callbackThrows: bool)
    requires D.Valid(d)
    ensures Apply(d, StdoutData(piece, callbackThrows)) == D.OnStdoutData(d, piece, callbackThrows)
  {
  }

  /** Running a non-empty sequence of calls applies the first one and then
      runs the rest. */
  lemma RunStep(d: D.Decoder, calls: seq<Call>)
    requires D.Valid(d) && |calls| > 0
    ensures Run(d, calls) == Run(Apply(d, calls[0]), calls[1..])
  {
  }

  /** While stdout is open and the spawning argument had a timestamp, every
      piece becomes exactly one delivered frame, in arrival order (`Frames`,
      `FramesAt`): its buffer is the piece, its timestamp and duration are
      those of the spawning argument, and its coded size is that of the
      current configuration (`Decoder.FrameForSucceeds`). No error is
      reported. */
  lemma {:induction false} OneFramePerPiece(d: D.Decoder, pieces: seq<Bytes>)
    requires D.Valid(d) && D.Live(d) && d.backend.value.timestamp.Some?
    ensures Run(d, DataEvents(pieces)).outputs == d.outputs + Frames(d.backend.value, d.config.value, pieces)
    ensures Run(d, DataEvents(pieces)).errors == d.errors
    decreases |pieces|
  {
    var b := d.backend.value;
    var c := d.config.value;
    if |pieces| > 0 {
      var b1 := b.(proc := b.proc.(stdout := b.proc.stdout + [pieces[0]]));
      DataStep(d, pieces[0]);
      var x := D.FrameFor(b, c, pieces[0]).value;
      var d1 := d.(backend := Some(b1), outputs := d.outputs + [x]);
      RunDataCons(d, pieces);
      OneFramePerPiece(d1, pieces[1..]);
      var rest := Frames(b, c, pieces[1..]);
      assert Frames(b1, c, pieces[1..]) == rest by {
        FramesIgnoreProcess(b, b1.proc, c, pieces[1..]);
      }
      assert Frames(b, c, pieces) == [x] + rest;
      SeqAssoc(d.outputs, [x], rest);
    } else {
      assert Run(d, DataEvents(pieces)) == d;
    }
  }

  /** Pieces arriving on an open stdout are received in order; the captured
      stamps, what was written to stdin, the configuration and the state
      stay, and stdout stays open. */
  lemma {:induction false} PiecesReceivedInOrder(d: D.Decoder, pieces: seq<Bytes>)
    requires D.Valid(d) && D.Live(d)
    ensures D.Live(Run(d, DataEvents(pieces)))
    ensures Run(d, DataEvents(pieces)).config == d.config
    ensures Run(d, DataEvents(pieces)).state == d.state
    ensures Run(d, DataEvents(pieces)).backend.value.proc.stdout == d.backend.value.proc.stdout + pieces
    ensures Run(d, DataEvents(pieces)).backend.value.proc.stdin == d.backend.value.proc.stdin
    ensures Run(d, DataEvents(pieces)).backend.value.timestamp == d.backend.value.timestamp
    ensures Run(d, DataEvents(pieces)).backend.value.duration == d.backend.value.duration
    decreases |pieces|
  {
    if |pieces| > 0 {
      var d1 := D.OnStdoutData(d, pieces[0], false);
      assert d1.backend.value.proc.stdout == d.backend.value.proc.stdout + [pieces[0]];
      RunDataCons(d, pieces);
      PiecesReceivedInOrder(d1, pieces[1..]);
      assert pieces == [pieces[0]] + pieces[1..];
      SeqAssoc(d.backend.value.proc.stdout, [pieces[0]], pieces[1..]);
    } else {
      assert Run(d, DataEvents(pieces)) == d;
    }
  }

  /** While stdout is open and the spawning argument had no numeric
      timestamp, no piece ever becomes a frame: each one reports the frame
      constructor's 'timestamp is required'. */
  lemma {:induction false} NoFrameWithoutTimestamp(d: D.Decoder, pieces: seq<Bytes>)
    requires D.Valid(d) && D.Live(d) && d.backend.value.timestamp.None?
    ensures var r := Run(d, DataEvents(pieces));
              && r.outputs == d.outputs
              && r.errors == d.errors + seq(|pieces|, _ => TimestampRequired)
              && D.Live(r) && r.backend.value.timestamp.None?
    decreases |pieces|
  {
    if |pieces| > 0 {
      var d1 := D.OnStdoutData(d, pieces[0], false);
      RunDataCons(d, pieces);
      NoFrameWithoutTimestamp(d1, pieces[1..]);
      assert seq(|pieces|, _ => TimestampRequired) == [TimestampRequired] + seq(|pieces| - 1, _ => TimestampRequired);
    } else {
      assert Run(d, DataEvents(pieces)) == d;
    }
  }

  /** The decoding example of the repository: a decoder configured for VP8
      at 640x480 is fed one key chunk stamped 0 and the process prints one
      piece; exactly one frame comes out, 640x480, stamped 0. */
  lemma {:induction false} SingleChunkScenario(data: Bytes, piece: Bytes)
    ensures var d0 := D.NewDecoder(true).value;
              var d1 := D.Configure(d0, Some(D.Config(Some("vp8"), Some(640), Some(480)))).0;
              var chunk := NewEncodedChunk(Some(ChunkInit(Some("key"), Some(0), None, Some(data)))).value;
              var d2 := D.Decode(d1, D.ArgOf(chunk)).0;
              var d3 := D.OnStdoutData(d2, piece, false);
              var r := D.Close(d3, ProcessCloses);
              && r.1 == Pass && r.0.state == Closed && |r.0.outputs| == 1
              && r.0.outputs[0].codedWidth == 640 && r.0.outputs[0].codedHeight == 480
              && r.0.outputs[0].timestamp == 0 && r.0.outputs[0].data == Some(piece)
  {
    var d0 := D.NewDecoder(true).value;
    var d1 := D.Configure(d0, Some(D.Config(Some("vp8"), Some(640), Some(480)))).0;
    var chunk := NewEncodedChunk(Some(ChunkInit(Some("key"), Some(0), None, Some(data)))).value;
    var d2 := D.Decode(d1, D.ArgOf(chunk)).0;
    D.FrameForSucceeds(d2.backend.value, d2.config.value, piece);
  }
}

=== FILE: encoder.dfy ===
/** `VideoEncoder`: a three-state machine (unconfigured, configured, closed)
    that validates its configuration, spawns one backend process lazily on
    the first `encode`, streams raw frame buffers into it, and packages
    everything the process printed on stdout into a single encoded chunk
    when stdout ends.

    The caller's two callbacks are not modelled as code: every chunk handed
    to the output callback is appended to `outputs`, every error handed to
    the error callback is appended to `errors`, and whether the output
    callback throws for a delivery is an input of the event that delivers. */
module Encoder {
  import opened Js
  import opened Errors
  import opened Units
  import opened Codecs
  import opened Bridge

  /** The dictionary passed to `configure`. */
  datatype Config = Config(
    codec: Option<string>,
    width: Option<int>,
    height: Option<int>,
    bitrate: Option<int>,
    keyframeInterval: Option<int>)

  /** The backend parameters frozen by the `encode` call that spawns. */
  datatype SpawnParams = SpawnParams(
    compressor: string,
    width: int,
    height: int,
    bitrate: int,
    keyframeInterval: int)

  /** A spawned process together with what its event handlers captured:
      the parameters, and the timestamp and duration of the frame passed to
      the spawning `encode` call (the handlers close over that frame). */
  datatype Backend = Backend(
    proc: Process,
    params: SpawnParams,
    timestamp: int,
    duration: int)

  datatype Encoder = Encoder(
    state: Lifecycle,
    config: Option<Config>,
    frameCount: nat,
    backend: Option<Backend>,
    outputs: seq<EncodedChunk>,
    errors: seq<Error>)

  /** A configuration `configure` accepts, stated as one condition per
      property rather than as a sequence of checks. A bitrate of 0 is falsy
      and therefore passes; so do negative widths and heights. */
  predicate Acceptable(c: Config) {
    && TruthyStr(c.codec)
    && TruthyNum(c.width)
    && TruthyNum(c.height)
    && (c.bitrate.None? || c.bitrate.value >= 0)
    && c.codec.value in SupportedCodecs
  }

  /** What every reachable encoder satisfies: a stored configuration was
      accepted, the configured state has one, and a spawned backend's
      keyframe interval can be used as a divisor. */
  predicate Valid(e: Encoder) {
    && (e.config.Some? ==> Acceptable(e.config.value))
    && (e.state == Configured ==> e.config.Some?)
    && (e.backend.Some? ==> e.backend.value.params.keyframeInterval != 0)
  }

  /** `new VideoEncoder(init)`: only the presence of an output callback is
      checked. */
  function NewEncoder(hasOutputCallback: bool): (r: Result<Encoder>)
    ensures r.Success? <==> hasOutputCallback
    ensures r.Failure? ==> r.error == OutputCallbackRequired
    ensures r.Success? ==> Valid(r.value) && r.value.state == Unconfigured
    ensures r.Success? ==> r.value.backend.None? && r.value.frameCount == 0
    ensures r.Success? ==> r.value.outputs == [] && r.value.errors == []
  {
    if hasOutputCallback then Success(Encoder(Unconfigured, None, 0, None, [], []))
    else Failure(OutputCallbackRequired)
  }

  /** The validation in `configure`, checks in source order: codec present,
      width and height truthy, a truthy bitrate positive, codec whitelisted.
      The first failing check decides the exception. */
  function CheckConfig(c: Option<Config>): (r: Outcome)
    ensures r.Pass? <==> c.Some? && Acceptable(c.value)
    ensures c.None? || !TruthyStr(c.value.codec) ==> r == Fail(CodecRequired)
    ensures c.Some? && TruthyStr(c.value.codec)
            && !(TruthyNum(c.value.width) && TruthyNum(c.value.height))
            ==> r == Fail(WidthHeightRequired)
    ensures c.Some? && TruthyStr(c.value.codec) && TruthyNum(c.value.width) && TruthyNum(c.value.height)
            && c.value.bitrate.Some? && c.value.bitrate.value < 0
            ==> r == Fail(BitrateNotPositive)
    ensures c.Some? && TruthyStr(c.value.codec) && TruthyNum(c.value.width) && TruthyNum(c.value.height)
            && (c.value.bitrate.None? || c.value.bitrate.value >= 0)
            && c.value.codec.value !in SupportedCodecs
            ==> r == Fail(UnsupportedCodec(c.value.codec.value))
  {
    if c.None? || !TruthyStr(c.value.codec) then Fail(CodecRequired)
    else if !TruthyNum(c.value.width) || !TruthyNum(c.value.height) then Fail(WidthHeightRequired)
    else if TruthyNum(c.value.bitrate) && c.value.bitrate.value <= 0 then Fail(BitrateNotPositive)
    else if c.value.codec.value !in SupportedCodecs then Fail(UnsupportedCodec(c.value.codec.value))
    else Pass
  }

  /** `encoder.configure(config)`. A rejected configuration changes nothing.
      An accepted one enters the configured state (also from 'closed'),
      replaces the configuration and resets the frame counter, but keeps an
      already-spawned backend with its frozen parameters. */
  function Configure(e: Encoder, c: Option<Config>): (r: (Encoder, Outcome))
    requires Valid(e)
    ensures Valid(r.0)
    ensures r.1 == CheckConfig(c)
    ensures r.1.Fail? ==> r.0 == e
    ensures r.1.Pass? ==> r.0.state == Configured && r.0.config == c && r.0.frameCount == 0
    ensures r.1.Pass? ==> r.0.backend == e.backend && r.0.outputs == e.outputs && r.0.errors == e.errors
  {
    var outcome := CheckConfig(c);
    if outcome.Fail? then (e, outcome)
    else (e.(config := c, state := Configured, frameCount := 0), Pass)
  }

  /** The backend parameters derived from an accepted configuration: the
      mapped compressor, the dimensions, the bitrate (a falsy one falls back
      to 1 000 000) and the GOP size (a falsy one falls back to 30). */
  function ParamsOf(c: Config): (p: SpawnParams)
    requires Acceptable(c)
    ensures p.compressor == CompressorName(c.codec.value) && p.compressor != c.codec.value
    ensures p.width == c.width.value && p.height == c.height.value
    ensures p.bitrate > 0 && p.keyframeInterval != 0
    ensures p.bitrate == (if c.bitrate.Some? && c.bitrate.value > 0 then c.bitrate.value else DefaultBitrate)
    ensures p.keyframeInterval ==
              (if c.keyframeInterval.Some? && c.keyframeInterval.value != 0 then c.keyframeInterval.value
               else DefaultKeyframeInterval)
  {
    SpawnParams(CompressorName(c.codec.value), c.width.value, c.height.value,
                NumOr(c.bitrate, DefaultBitrate), NumOr(c.keyframeInterval, DefaultKeyframeInterval))
  }

  /** The backend `encode` writes to: the existing one, or a fresh process
      whose parameters come from the current configuration and whose
      handlers capture the given frame. */
  function BackendFor(e: Encoder, frame: VideoFrame): Backend
    requires Valid(e) && e.state == Configured
  {
    if e.backend.Some? then e.backend.value
    else Backend(Spawned, ParamsOf(e.config.value), frame.timestamp, frame.duration)
  }

  /** `encoder.encode(frame)`. Outside the configured state it throws and
      changes nothing. Otherwise it spawns the backend if there is none
      (never a second one), then writes the frame's buffer. A closed frame
      has a null buffer, `stdin.write(null)` throws, and the exception goes
      to the error callback with the counter left alone; every other write
      counts the frame. */
  function Encode(e: Encoder, frame: VideoFrame): (r: (Encoder, Outcome))
    requires Valid(e)
    ensures Valid(r.0)
    ensures e.state != Configured ==> r == (e, Fail(EncoderNotConfigured))
    ensures e.state == Configured ==>
              && r.1 == Pass
              && r.0.state == e.state && r.0.config == e.config && r.0.outputs == e.outputs
              && r.0.backend.Some?
    // an existing backend keeps its parameters and captured frame
    ensures e.state == Configured && e.backend.Some? ==>
              r.0.backend.value.(proc := e.backend.value.proc) == e.backend.value
    // a new backend is frozen from the configuration and this frame
    ensures e.state == Configured && e.backend.None? ==>
              && r.0.backend.value.params == ParamsOf(e.config.value)
              && r.0.backend.value.timestamp == frame.timestamp
              && r.0.backend.value.duration == frame.duration
              && r.0.backend.value.proc.stdout == []
              && !r.0.backend.value.proc.stdinEnded
    // the buffer is appended to stdin, after everything written before
    ensures e.state == Configured ==>
              var before := if e.backend.Some? then e.backend.value.proc else Spawned;
              && r.0.backend.value.proc.stdout == before.stdout
              && r.0.backend.value.proc.stdinEnded == before.stdinEnded
              && r.0.backend.value.proc.stdoutEnded == before.stdoutEnded
              && r.0.backend.value.proc.exited == before.exited
              && r.0.backend.value.proc.stdin ==
                   before.stdin + (if frame.data.Some? && !before.stdinEnded then [frame.data.value] else [])
    ensures e.state == Configured && frame.data.Some? ==>
              r.0.frameCount == e.frameCount + 1 && r.0.errors == e.errors
    ensures e.state == Configured && frame.data.None? ==>
              r.0.frameCount == e.frameCount && r.0.errors == e.errors + [WriteFailed]
  {
    if e.state != Configured then (e, Fail(EncoderNotConfigured))
    else
      var b := BackendFor(e, frame);
      match frame.data
      case None =>
        (e.(backend := Some(b), errors := e.errors + [WriteFailed]), Pass)
      case Some(bytes) =>
        (e.(backend := Some(b.(proc := Write(b.proc, bytes))), frameCount := e.frameCount + 1), Pass)
  }

  // ------------------------------------------------------- process events

  /** The chunk type chosen at end of stream: 'key' when the current frame
      counter is a multiple of the interval captured at spawn time. */
  function ChunkKind(frameCount: nat, interval: int): (kind: string)
    requires interval != 0
    ensures kind == "key" <==> frameCount % interval == 0
    ensures kind == "key" || kind == "delta"
  {
    if JsRem(frameCount, interval) == 0 then "key" else "delta"
  }

  /** The chunk built from everything the process printed. */
  function OutputChunk(b: Backend, frameCount: nat): (c: EncodedChunk)
    requires b.params.keyframeInterval != 0
    ensures ChunkShape(c)
    ensures c.data == Flatten(b.proc.stdout) && c.byteLength == TotalLength(b.proc.stdout)
    ensures c.kind == "key" <==> frameCount % b.params.keyframeInterval == 0
    ensures c.kind == "key" || c.kind == "delta"
    ensures c.timestamp == b.timestamp && c.duration == b.duration
  {
    FlattenLength(b.proc.stdout);
    var r := NewEncodedChunk(Some(ChunkInit(
      Some(ChunkKind(frameCount, b.params.keyframeInterval)),
      Some(b.timestamp), Some(b.duration), Some(Flatten(b.proc.stdout)))));
    r.value
  }

  /** A stdout 'data' event: the piece is kept, nothing is delivered. */
  function OnStdoutData(e: Encoder, piece: Bytes): (r: Encoder)
    requires Valid(e)
    ensures Valid(r)
    ensures r.outputs == e.outputs && r.errors == e.errors && r.frameCount == e.frameCount
    ensures r.state == e.state && r.config == e.config
    ensures r.backend.Some? <==> e.backend.Some?
    ensures e.backend.Some? ==>
              && r.backend.value.(proc := e.backend.value.proc) == e.backend.value
              && r.backend.value.proc == Receive(e.backend.value.proc, piece)
  {
    match e.backend
    case None => e
    case Some(b) => e.(backend := Some(b.(proc := Receive(b.proc, piece))))
  }

  /** A stdout 'end' event. The first one delivers a single chunk holding
      every piece in arrival order, if any piece arrived at all; a later one
      delivers nothing. A throwing output callback is reported to the error
      callback. */
  function OnStdoutEnd(e: Encoder, callbackThrows: bool): (r: Encoder)
    requires Valid(e)
    ensures Valid(r)
    ensures r.state == e.state && r.config == e.config && r.frameCount == e.frameCount
    ensures r.backend.Some? <==> e.backend.Some?
    ensures e.backend.Some? ==>
              r.backend.value == e.backend.value.(proc := e.backend.value.proc.(stdoutEnded := true))
    ensures Delivers(e) ==>
              && r.outputs == e.outputs + [OutputChunk(e.backend.value, e.frameCount)]
              && r.errors == e.errors + (if callbackThrows then [OutputCallbackThrew] else [])
    ensures !Delivers(e) ==> r.outputs == e.outputs && r.errors == e.errors
  {
    match e.backend
    case None => e
    case Some(b) =>
      if b.proc.stdoutEnded then e
      else
        var e' := e.(backend := Some(b.(proc := b.proc.(stdoutEnded := true))));
        if |b.proc.stdout| == 0 then e'
        else e'.(outputs := e.outputs + [OutputChunk(b, e.frameCount)],
                 errors := e.errors + if callbackThrows then [OutputCallbackThrew] else [])
  }

  /** Stdout has not ended yet and at least one piece arrived. */
  predicate Delivers(e: Encoder) {
    e.backend.Some? && !e.backend.value.proc.stdoutEnded && |e.backend.value.proc.stdout| > 0
  }

  /** A stderr 'data' event: reported when the heuristic matches. */
  function OnStderr(e: Encoder, msg: string): (r: Encoder)
    ensures r.(errors := e.errors) == e
    ensures r.errors == e.errors + (if e.backend.Some? && ReportsError(msg) then [Diagnostic(msg)] else [])
  {
    if e.backend.Some? && ReportsError(msg) then e.(errors := e.errors + [Diagnostic(msg)]) else e
  }

  /** The process 'error' event (for instance, it could not be spawned). */
  function OnProcessError(e: Encoder): (r: Encoder)
    ensures r.(errors := e.errors) == e
    ensures r.errors == e.errors + (if e.backend.Some? then [ProcessFailed] else [])
  {
    if e.backend.Some? then e.(errors := e.errors + [ProcessFailed]) else e
  }

  /** The process 'close' event. Node emits it only after stdout has ended,
      so a pending end of stream is delivered first. */
  function OnExit(e: Encoder, callbackThrows: bool): (r: Encoder)
    requires Valid(e)
    ensures Valid(r)
    ensures r.state == e.state && r.config == e.config && r.frameCount == e.frameCount
    ensures r.backend.Some? <==> e.backend.Some?
    ensures e.backend.Some? ==>
              r.backend.value == e.backend.value.(proc := e.backend.value.proc.(stdoutEnded := true, exited := true))
    ensures r.outputs == OnStdoutEnd(e, callbackThrows).outputs
    ensures r.errors == OnStdoutEnd(e, callbackThrows).errors
  {
    var e' := OnStdoutEnd(e, callbackThrows);
    match e'.backend
    case None => e'
    case Some(b) => e'.(backend := Some(b.(proc := b.proc.(exited := true))))
  }

  // ------------------------------------------------------ flush and close

  /** `encoder.flush()`. Without a process it resolves at once. Otherwise it
      ends stdin and waits: it resolves if the process emits 'close' before
      the timer fires, and rejects with a timeout otherwise. A process that
      already emitted 'close' never emits it again, so flushing it always
      times out. */
  function Flush(e: Encoder, race: FlushRace, callbackThrows: bool): (r: (Encoder, Outcome))
    requires Valid(e)
    ensures Valid(r.0)
    ensures r.0.state == e.state && r.0.config == e.config && r.0.frameCount == e.frameCount
    ensures e.backend.None? ==> r == (e, Pass)
    ensures r.1.Pass? <==> e.backend.None? || (race == ProcessCloses && !e.backend.value.proc.exited)
    ensures r.1.Fail? ==> r.1.error == FlushTimeout
    // on a timeout only stdin has ended: the process, its captured frame
    // and everything it printed stay for a later end of stream
    ensures e.backend.Some? && r.1.Fail? ==>
              && r.0.backend == Some(e.backend.value.(proc := e.backend.value.proc.(stdinEnded := true)))
              && r.0.outputs == e.outputs && r.0.errors == e.errors
    // when the process closes, every stream has ended and a pending chunk
    // has been delivered, a throwing callback reported
    ensures e.backend.Some? && r.1.Pass? ==>
              var b := e.backend.value;
              && r.0.backend == Some(b.(proc := b.proc.(stdinEnded := true, stdoutEnded := true, exited := true)))
              && r.0.outputs == e.outputs + (if Delivers(e) then [OutputChunk(b, e.frameCount)] else [])
              && r.0.errors == e.errors + (if Delivers(e) && callbackThrows then [OutputCallbackThrew] else [])
  {
    match e.backend
    case None => (e, Pass)
    case Some(b) =>
      var e1 := e.(backend := Some(b.(proc := b.proc.(stdinEnded := true))));
      if race == ProcessCloses && !b.proc.exited then (OnExit(e1, callbackThrows), Pass)
      else (e1, Fail(FlushTimeout))
  }

  /** `encoder.close()`. When the flush resolves, the process is killed and
      dropped and the encoder is closed. When it rejects, the error goes to
      the error callback and is rethrown; the state and the process stay,
      with stdin ended. */
  function Close(e: Encoder, race: FlushRace, callbackThrows: bool): (r: (Encoder, Outcome))
    requires Valid(e)
    ensures Valid(r.0)
    ensures r.1 == Flush(e, race, callbackThrows).1
    ensures r.0.config == e.config && r.0.frameCount == e.frameCount
    ensures r.1.Pass? ==> r.0.state == Closed && r.0.backend.None?
    ensures r.1.Pass? ==>
              && r.0.outputs == e.outputs + (if Delivers(e) then [OutputChunk(e.backend.value, e.frameCount)] else [])
              && r.0.errors == e.errors + (if Delivers(e) && callbackThrows then [OutputCallbackThrew] else [])
    ensures r.1.Fail? ==>
              && r.0.state == e.state
              && r.0.backend == Some(e.backend.value.(proc := e.backend.value.proc.(stdinEnded := true)))
              && r.0.outputs == e.outputs && r.0.errors == e.errors + [FlushTimeout]
    // closing an encoder without a process emits and reports nothing
    ensures e.backend.None? ==> r == (e.(state := Closed), Pass)
  {
    var (e1, outcome) := Flush(e, race, callbackThrows);
    if outcome.Pass? then (e1.(backend := None, state := Closed), Pass)
    else (e1.(errors := e1.errors + [outcome.error]), outcome)
  }
}

=== FILE: encoder_runs.dfy ===
/** Properties of whole interactions with one encoder: a sequence of caller
    calls and process events, applied in order. */
module EncoderRuns {
  import opened Js
  import opened Errors
  import opened Units
  import opened Codecs
  import opened Bridge
  import E = Encoder

  /** Everything that can happen to an encoder: a call by its owner or an
      event from its backend process. */
  datatype Call =
    | Configure(config: Option<E.Config>)
    | Encode(frame: VideoFrame)
    | Flush(race: FlushRace, callbackThrows: bool)
    | Close(race: FlushRace, callbackThrows: bool)
    | StdoutData(piece: Bytes)
    | StdoutEnd(callbackThrows: bool)
    | Stderr(msg: string)
    | ProcessError
    | Exit(callbackThrows: bool)

  function Apply(e: E.Encoder, call: Call): (r: E.Encoder)
    requires E.Valid(e)
    ensures E.Valid(r)
  {
    match call
    case Configure(c) => E.Configure(e, c).0
    case Encode(f) => E.Encode(e, f).0
    case Flush(race, t) => E.Flush(e, race, t).0
    case Close(race, t) => E.Close(e, race, t).0
    case StdoutData(p) => E.OnStdoutData(e, p)
    case StdoutEnd(t) => E.OnStdoutEnd(e, t)
    case Stderr(m) => E.OnStderr(e, m)
    case ProcessError => E.OnProcessError(e)
    case Exit(t) => E.OnExit(e, t)
  }

  /** The encoder after every call of `calls`, first to last. Every
      reachable encoder stays valid. */
  function Run(e: E.Encoder, calls: seq<Call>): (r: E.Encoder)
    requires E.Valid(e)
    ensures E.Valid(r)
    decreases |calls|
  {
    if |calls| == 0 then e else Run(Apply(e, calls[0]), calls[1..])
  }

  /** Running a non-empty sequence of calls applies the first one and then
      runs the rest. */
  lemma RunStep(e: E.Encoder, calls: seq<Call>)
    requires E.Valid(e) && |calls| > 0
    ensures Run(e, calls) == Run(Apply(e, calls[0]), calls[1..])
  {
  }

  /** An `encode` call is handled by `Encoder.Encode`. */
  lemma ApplyEncode(e: E.Encoder, frame: VideoFrame)
    requires E.Valid(e)
    ensures Apply(e, Encode(frame)) == E.Encode(e, frame).0
  {
  }

  /** One `encode` call per frame, in order. */
  function EncodeCalls(frames: seq<VideoFrame>): (calls: seq<Call>)
    ensures |calls| == |frames|
  {
    if |frames| == 0 then [] else [Encode(frames[0])] + EncodeCalls(frames[1..])
  }

  /** The buffers of frames that all still hold one. */
  function DataOf(frames: seq<VideoFrame>): seq<Bytes>
    requires forall i :: 0 <= i < |frames| ==> frames[i].data.Some?
  {
    if |frames| == 0 then [] else [frames[0].data.value] + DataOf(frames[1..])
  }

  /** What stdin has received so far (nothing when there is no process). */
  function StdinOf(e: E.Encoder): seq<Bytes> {
    if e.backend.Some? then e.backend.value.proc.stdin else []
  }

  // ------------------------------------------------------------ the guard

  /** Outside the configured state (before any configure, or after a
      successful close) any number of `encode` calls changes nothing: no
      process is spawned, nothing is written and nothing is counted. */
  lemma {:induction false} EncodeGuard(e: E.Encoder, frames: seq<VideoFrame>)
    requires E.Valid(e) && e.state != Configured
    ensures Run(e, EncodeCalls(frames)) == e
    decreases |frames|
  {
    if |frames| > 0 {
      assert EncodeCalls(frames)[1..] == EncodeCalls(frames[1..]);
      EncodeGuard(e, frames[1..]);
    }
  }

  /** A successful close is final for `encode`, and a second close resolves
      without spawning, emitting or reporting anything. */
  lemma CloseIsFinal(e: E.Encoder, race: FlushRace, t: bool, frame: VideoFrame, race': FlushRace, t': bool)
    requires E.Valid(e) && E.Close(e, race, t).1.Pass?
    ensures var c := E.Close(e, race, t).0;
              && c.state == Closed && c.backend.None?
              && E.Encode(c, frame) == (c, Fail(EncoderNotConfigured))
              && E.Close(c, race', t') == (c, Pass)
  {
  }

  // ------------------------------------------------ spawning and writing

  /** A run of `encode` calls on a configured encoder, all with open
      frames, while stdin is still open: every buffer is appended to stdin
      in call order, the counter grows by one per frame, a backend exists
      afterwards iff one existed or a frame was encoded, and nothing is
      emitted or reported. */
  lemma {:induction false} EncodesAppendInOrder(e: E.Encoder, frames: seq<VideoFrame>)
    requires E.Valid(e) && e.state == Configured
    requires forall i :: 0 <= i < |frames| ==> frames[i].data.Some?
    requires e.backend.None? || !e.backend.value.proc.stdinEnded
    ensures var r := Run(e, EncodeCalls(frames));
              && r.state == Configured && r.config == e.config
              && r.frameCount == e.frameCount + |frames|
              && r.outputs == e.outputs && r.errors == e.errors
              && StdinOf(r) == StdinOf(e) + DataOf(frames)
              && (r.backend.Some? <==> e.backend.Some? || |frames| > 0)
              && (r.backend.Some? ==> !r.backend.value.proc.stdinEnded)
    decreases |frames|
  {
    if |frames| > 0 {
      var e1 := E.Encode(e, frames[0]).0;
      var x, rest := frames[0].data.value, DataOf(frames[1..]);
      EncodeCallsCons(e, frames);
      EncodesAppendInOrder(e1, frames[1..]);
      assert StdinOf(e1) == StdinOf(e) + [x];
      assert DataOf(frames) == [x] + rest;
      SeqAssoc(StdinOf(e), [x], rest);
    }
  }

  /** In a run of `encode` calls on a configured encoder the backend is
      spawned at most once: an existing one keeps its parameters, its
      captured frame, its stdout and its stream flags; without one, the
      first call spawns it from the configuration and the first frame. */
  lemma {:induction false} EncodesSpawnOnce(e: E.Encoder, frames: seq<VideoFrame>)
    requires E.Valid(e) && e.state == Configured
    ensures e.backend.Some? ==>
              var r := Run(e, EncodeCalls(frames));
              && r.backend.Some?
              && r.backend.value.params == e.backend.value.params
              && r.backend.value.timestamp == e.backend.value.timestamp
              && r.backend.value.duration == e.backend.value.duration
              && r.backend.value.proc.stdout == e.backend.value.proc.stdout
              && r.backend.value.proc.stdoutEnded == e.backend.value.proc.stdoutEnded
              && r.backend.value.proc.exited == e.backend.value.proc.exited
    ensures e.backend.None? && |frames| > 0 ==>
              var r := Run(e, EncodeCalls(frames));
              && r.backend.Some?
              && r.backend.value.params == E.ParamsOf(e.config.value)
              && r.backend.value.timestamp == frames[0].timestamp
              && r.backend.value.duration == frames[0].duration
              && r.backend.value.proc.stdout == []
              && !r.backend.value.proc.stdoutEnded && !r.backend.value.proc.exited
    decreases |frames|
  {
    if |frames| > 0 {
      var e1 := E.Encode(e, frames[0]).0;
      EncodeCallsCons(e, frames);
      EncodesSpawnOnce(e1, frames[1..]);
    }
  }

  /** Running the calls of several frames is encoding the first frame and
      then running the rest. */
  lemma EncodeCallsCons(e: E.Encoder, frames: seq<VideoFrame>)
    requires E.Valid(e) && |frames| > 0
    ensures Run(e, EncodeCalls(frames)) == Run(E.Encode(e, frames[0]).0, EncodeCalls(frames[1..]))
  {
    var calls := EncodeCalls(frames);
    assert calls[0] == Encode(frames[0]) && calls[1..] == EncodeCalls(frames[1..]) by {
      assert calls == [Encode(frames[0])] + EncodeCalls(frames[1..]);
    }
    RunStep(e, calls);
    ApplyEncode(e, frames[0]);
  }

  // ------------------------------------------------------------ outputs

  /** How many chunks the current process can still emit: one, unless its
      stdout has already ended. With no process, a future one may emit. */
  function Budget(e: E.Encoder): nat {
    if e.backend.Some? && e.backend.value.proc.stdoutEnded then 0 else 1
  }

  /** A single call other than `close` never removes an emitted chunk, and
      emitting one uses up the budget of the current process. */
  lemma ApplyKeepsBudget(e: E.Encoder, call: Call)
    requires E.Valid(e) && !call.Close?
    ensures var r := Apply(e, call);
              && |e.outputs| <= |r.outputs|
              && r.outputs[..|e.outputs|] == e.outputs
              && |r.outputs| + Budget(r) <= |e.outputs| + Budget(e)
  {
    var r := Apply(e, call);
    match call
    case Flush(race, t) =>
      if e.backend.Some? && E.Flush(e, race, t).1.Pass? {
        assert r.outputs == E.OnStdoutEnd(e, t).outputs;
      }
    case _ =>
  }

  /** Between two closes an encoder emits at most one chunk: whatever
      happens (configure, encode, flush, process events), the chunks already
      emitted stay and at most one more is added, none if the current
      process's stdout has already ended. */
  lemma {:induction false} AtMostOneChunkBetweenCloses(e: E.Encoder, calls: seq<Call>)
    requires E.Valid(e)
    requires forall i :: 0 <= i < |calls| ==> !calls[i].Close?
    ensures var r := Run(e, calls);
              && |e.outputs| <= |r.outputs| <= |e.outputs| + Budget(e)
              && r.outputs[..|e.outputs|] == e.outputs
    decreases |calls|
  {
    if |calls| > 0 {
      var e1 := Apply(e, calls[0]);
      ApplyKeepsBudget(e, calls[0]);
      AtMostOneChunkBetweenCloses(e1, calls[1..]);
      var r := Run(e, calls);
      assert r == Run(e1, calls[1..]);
      assert r.outputs[..|e.outputs|] == r.outputs[..|e1.outputs|][..|e.outputs|];
    }
  }

  /** A single call other than `close` never drops or replaces a spawned
      backend: its parameters and captured frame stay. */
  lemma ApplyKeepsBackend(e: E.Encoder, call: Call)
    requires E.Valid(e) && e.backend.Some? && !call.Close?
    ensures var r := Apply(e, call);
              && r.backend.Some?
              && r.backend.value.params == e.backend.value.params
              && r.backend.value.timestamp == e.backend.value.timestamp
              && r.backend.value.duration == e.backend.value.duration
  {
  }

  /** Between two closes the backend is spawned at most once: whatever
      happens (re-configure, encode, a flush that resolves or times out,
      process events), an existing backend keeps the parameters and the
      frame frozen by the `encode` call that spawned it. */
  lemma {:induction false} BackendFrozenBetweenCloses(e: E.Encoder, calls: seq<Call>)
    requires E.Valid(e) && e.backend.Some?
    requires forall i :: 0 <= i < |calls| ==> !calls[i].Close?
    ensures var r := Run(e, calls);
              && r.backend.Some?
              && r.backend.value.params == e.backend.value.params
              && r.backend.value.timestamp == e.backend.value.timestamp
              && r.backend.value.duration == e.backend.value.duration
    decreases |calls|
  {
    if |calls| > 0 {
      var e1 := Apply(e, calls[0]);
      ApplyKeepsBackend(e, calls[0]);
      BackendFrozenBetweenCloses(e1, calls[1..]);
      assert Run(e, calls) == Run(e1, calls[1..]);
    }
  }

  /** Ending stdout emits exactly one chunk iff at least one piece arrived
      on a still-open stdout; the chunk holds every piece in arrival order,
      carries the frame captured at spawn, and is a key chunk iff the frame
      counter at that moment is a multiple of the interval frozen at spawn. */
  lemma EndOfStreamChunk(e: E.Encoder, t: bool)
    requires E.Valid(e) && e.backend.Some? && !e.backend.value.proc.stdoutEnded
    ensures var r := E.OnStdoutEnd(e, t);
              |r.outputs| == |e.outputs| + (if |e.backend.value.proc.stdout| > 0 then 1 else 0)
    ensures |e.backend.value.proc.stdout| > 0 ==>
              var c := E.OnStdoutEnd(e, t).outputs[|e.outputs|];
              var b := e.backend.value;
              && c.data == Flatten(b.proc.stdout)
              && c.byteLength == TotalLength(b.proc.stdout)
              && c.timestamp == b.timestamp && c.duration == b.duration
              && (c.kind == "key" <==> e.frameCount % b.params.keyframeInterval == 0)
              && (c.kind == "delta" <==> e.frameCount % b.params.keyframeInterval != 0)
  {
  }

  /** Re-configuring after the backend was spawned resets the counter but
      keeps the backend, so when stream end follows the re-configure with no
      `encode` in between, the chunk it delivers is a key chunk, and still
      carries the first frame's timestamp. */
  lemma ReconfigureThenEndIsKey(e: E.Encoder, c: Option<E.Config>, t: bool)
    requires E.Valid(e) && E.Delivers(e) && E.CheckConfig(c).Pass?
    ensures var r := E.OnStdoutEnd(E.Configure(e, c).0, t);
              && |r.outputs| == |e.outputs| + 1
              && r.outputs[|e.outputs|].kind == "key"
              && r.outputs[|e.outputs|].timestamp == e.backend.value.timestamp
  {
  }

  /** An `encode` between the re-configure and stream end counts again, so
      the chunk is judged at counter 1: with any GOP size other than 1 (the
      default 30 included) it is a delta chunk. */
  lemma ReconfigureEncodeThenEnd(e: E.Encoder, c: Option<E.Config>, f: VideoFrame, t: bool)
    requires E.Valid(e) && E.Delivers(e) && E.CheckConfig(c).Pass? && f.data.Some?
    ensures var e1 := E.Configure(e, c).0;
            var r := E.OnStdoutEnd(E.Encode(e1, f).0, t);
              && |r.outputs| == |e.outputs| + 1
              && (r.outputs[|e.outputs|].kind == "key" <==> 1 % e.backend.value.params.keyframeInterval == 0)
              && (e.backend.value.params.keyframeInterval == 30 ==> r.outputs[|e.outputs|].kind == "delta")
  {
  }

  // ------------------------------------------------------------ examples

  /** The configurations exercised by the repository's edge-case tests,
      plus the truthiness corner cases: an unknown codec and a missing size
      are rejected, 10 Mbps is accepted, a zero bitrate passes validation and
      falls back to the default, a negative width passes. */
  lemma ConfigureExamples()
    ensures E.CheckConfig(Some(E.Config(Some("invalid"), Some(320), Some(240), None, None)))
            == Fail(UnsupportedCodec("invalid"))
    ensures E.CheckConfig(Some(E.Config(Some("vp8"), None, None, None, None))) == Fail(WidthHeightRequired)
    ensures E.CheckConfig(Some(E.Config(Some("vp8"), Some(320), Some(240), Some(10000000), None))) == Pass
    ensures E.CheckConfig(Some(E.Config(Some("vp8"), Some(0), Some(240), None, None))) == Fail(WidthHeightRequired)
    ensures E.CheckConfig(Some(E.Config(Some("vp8"), Some(-320), Some(240), None, None))) == Pass
    ensures E.CheckConfig(Some(E.Config(Some("vp8"), Some(320), Some(240), Some(-1), None))) == Fail(BitrateNotPositive)
    ensures E.ParamsOf(E.Config(Some("vp8"), Some(320), Some(240), Some(0), None)).bitrate == DefaultBitrate
    ensures E.ParamsOf(E.Config(Some("h264"), Some(320), Some(240), None, Some(0))).keyframeInterval
            == DefaultKeyframeInterval
    ensures E.CheckConfig(Some(E.Config(None, Some(320), Some(240), None, None))) == Fail(CodecRequired)
    ensures E.CheckConfig(None) == Fail(CodecRequired)
  {
  }

  /** Five open frames encoded after a VP8 configuration, one stdout piece,
      then a close whose flush sees the process exit: exactly one chunk is
      emitted, holding the piece, stamped with the FIRST frame's timestamp
      and duration, and typed 'delta' because 5 is not a multiple of 30. */
  lemma {:induction false} FiveFrameScenario(frames: seq<VideoFrame>, piece: Bytes)
    requires |frames| == 5
    requires forall i :: 0 <= i < 5 ==> frames[i].data.Some?
    ensures var e0 := E.NewEncoder(true).value;
              var e1 := E.Configure(e0, Some(E.Config(Some("vp8"), Some(320), Some(240), Some(500000), None))).0;
              var e2 := Run(e1, EncodeCalls(frames));
              var e3 := E.OnStdoutData(e2, piece);
              var r := E.Close(e3, ProcessCloses, false);
              && r.1 == Pass && r.0.state == Closed
              && r.0.outputs == [EncodedChunk("delta", frames[0].timestamp, frames[0].duration, piece, |piece|)]
  {
    var e0 := E.NewEncoder(true).value;
    var e1 := E.Configure(e0, Some(E.Config(Some("vp8"), Some(320), Some(240), Some(500000), None))).0;
    EncodesAppendInOrder(e1, frames);
    EncodesSpawnOnce(e1, frames);
    var e2 := Run(e1, EncodeCalls(frames));
    var e3 := E.OnStdoutData(e2, piece);
    assert e3.backend.value.proc.stdout == [piece];
    assert Flatten([piece]) == piece;
    assert 5 % 30 != 0;
  }
}

=== FILE: errors.dfy ===
/** The exceptions the codec wrapper throws or hands to its error callback,
    and the two shapes in which an operation reports them. */
module Errors {

  datatype Error =
    // TypeErrors thrown by the unit constructors
    | DataNotBuffer                 // 'data must be a Buffer'
    | TimestampRequired             // 'timestamp is required'
    | CodedSizeRequired             // 'codedWidth and codedHeight are required'
    | TypeAndDataRequired           // 'type and data are required'
    // TypeErrors thrown by the encoder/decoder constructors and `configure`
    | OutputCallbackRequired        // 'output callback is required'
    | CodecRequired                 // 'codec is required'
    | WidthHeightRequired           // 'width and height are required'
    | BitrateNotPositive            // 'bitrate must be positive'
    | UnsupportedCodec(codec: string)
    // thrown by `encode` / `decode` outside the configured state
    | EncoderNotConfigured
    | DecoderNotConfigured
    // reported by the backend process or the stream plumbing
    | WriteFailed                   // `stdin.write` threw synchronously
    | ProcessFailed                 // the child process emitted 'error'
    | Diagnostic(msg: string)       // stderr text that looked like a failure
    | OutputCallbackThrew           // the caller's output callback threw
    | FlushTimeout                  // 'Flush timeout'

  /** Completion of an operation that returns nothing: normal return, or an
      exception thrown to the caller. */
  datatype Outcome = Pass | Fail(error: Error)

  /** Completion of a constructor: the new value, or the exception it threw. */
  datatype Result<+T> = Success(value: T) | Failure(error: Error)
}

=== FILE: js.dfy ===
/** The few pieces of JavaScript value semantics the codec wrapper depends on:
    optional properties, truthiness of numbers and strings, the `x || d`
    default idiom, the truncating remainder operator `%`, and
    `String.prototype.includes`. */
module Js {

  /** A property that is either absent (`undefined`) or holds a value. */
  datatype Option<+T> = None | Some(value: T)

  /** `!!x` for a numeric property: absent and `0` are falsy, every other
      number (negative ones included) is truthy. */
  predicate TruthyNum(x: Option<int>) {
    x.Some? && x.value != 0
  }

  /** `!!x` for a string property: absent and `""` are falsy. */
  predicate TruthyStr(x: Option<string>) {
    x.Some? && x.value != ""
  }

  /** `x || d` for a numeric property. */
  function NumOr(x: Option<int>, d: int): int {
    if TruthyNum(x) then x.value else d
  }

  /** `x || d` for a string property. */
  function StrOr(x: Option<string>, d: string): string {
    if TruthyStr(x) then x.value else d
  }

  function Abs(x: int): nat {
    if x < 0 then -x else x
  }

  /** JavaScript's `a % b`: the remainder of division truncated toward zero,
      so it takes the sign of the dividend (Dafny's `%` is Euclidean). It
      differs from `a` by a multiple of `b`, which together with its sign and
      magnitude fixes its value. For a non-negative dividend it is zero
      exactly when `b` divides `a`. */
  function JsRem(a: int, b: int): (r: int)
    requires b != 0
    ensures exists q :: a == b * q + r
    ensures Abs(r) < Abs(b)
    ensures a >= 0 ==> r >= 0
    ensures a < 0 ==> r <= 0
    ensures a >= 0 ==> ((r == 0) <==> (a % b == 0))
  {
    var m := Abs(a) % Abs(b);
    var k := Abs(a) / Abs(b);
    assert Abs(a) == Abs(b) * k + m;
    assert a >= 0 ==> m == a % b by {
      if b < 0 { ModOfNegatedDivisor(a, b); }
    }
    var r := if a < 0 then -m else m;
    var q := if (a < 0) == (b < 0) then k else -k;
    assert a == b * q + r;
    r
  }

  /** The clauses of `JsRem` determine it: any value that differs from `a`
      by a multiple of `b`, has the dividend's sign and lies below the
      divisor in magnitude is the truncated remainder. */
  lemma JsRemUnique(a: int, b: int, q: int, s: int)
    requires b != 0 && a == b * q + s && Abs(s) < Abs(b)
    requires a >= 0 ==> s >= 0
    requires a < 0 ==> s <= 0
    ensures s == JsRem(a, b)
  {
    var r := JsRem(a, b);
    var q0 :| a == b * q0 + r;
    assert b * (q - q0) == r - s;
    if q != q0 {
      MultipleAtLeastDivisor(b, q - q0);
      assert false;
    }
  }

  /** A non-zero multiple of `b` is at least `b` in magnitude. */
  lemma {:induction false} MultipleAtLeastDivisor(b: int, k: int)
    requires b != 0 && k != 0
    ensures Abs(b * k) >= Abs(b)
    decreases Abs(k), if k < 0 then 1 else 0
  {
    if k > 0 {
      assert b * k == b * (k - 1) + b;
      if k > 1 { MultipleAtLeastDivisor(b, k - 1); }
    } else {
      assert b * k == -(b * -k);
      MultipleAtLeastDivisor(b, -k);
    }
  }

  /** The Euclidean remainder does not depend on the divisor's sign. */
  lemma ModOfNegatedDivisor(a: int, b: int)
    requires b < 0
    ensures a % b == a % -b
  {
  }

  /** `t` occurs in `s` starting at index `i`. */
  predicate OccursAt(s: string, t: string, i: int) {
    0 <= i && i + |t| <= |s| && s[i..i + |t|] == t
  }

  /** `s.includes(t)`: a case-sensitive substring test, scanning `s` from the
      left. */
  predicate Includes(s: string, t: string)
    decreases |s|
  {
    if |t| > |s| then false
    else if s[..|t|] == t then true
    else Includes(s[1..], t)
  }

  /** The scan finds `t` exactly when `t` occurs somewhere in `s`. */
  lemma {:induction false} IncludesIffOccurs(s: string, t: string)
    ensures Includes(s, t) <==> exists i :: OccursAt(s, t, i)
    decreases |s|
  {
    if |t| > |s| {
    } else if s[..|t|] == t {
      assert OccursAt(s, t, 0);
    } else {
      IncludesIffOccurs(s[1..], t);
      if exists i :: OccursAt(s[1..], t, i) {
        var i :| OccursAt(s[1..], t, i);
        assert s[1..][i..i + |t|] == s[i + 1..i + 1 + |t|];
        assert OccursAt(s, t, i + 1);
      }
      if exists i :: OccursAt(s, t, i) {
        var i :| OccursAt(s, t, i);
        assert i != 0;
        assert s[1..][i - 1..i - 1 + |t|] == s[i..i + |t|];
        assert OccursAt(s[1..], t, i - 1);
      }
    }
  }
}

=== FILE: units.dfy ===
/** The two value types the codec API exchanges with its caller: a raw video
    frame and an encoded chunk. Both are records whose constructors check
    their arguments and fill in defaults; a frame can additionally be closed,
    which releases its pixel buffer and nothing else. */
module Units {
  import opened Js
  import opened Errors

  type Bytes = seq<bv8>

  const DefaultFormat: string := "I420"
  const DefaultColorSpace: string := "bt709"

  // ---------------------------------------------------------------- frames

  /** The `init` dictionary of `new VideoFrame(data, init)`. A `timestamp` of
      `None` stands for a property that is absent or not of type number. */
  datatype FrameInit = FrameInit(
    timestamp: Option<int>,
    duration: Option<int>,
    codedWidth: Option<int>,
    codedHeight: Option<int>,
    format: Option<string>,
    colorSpace: Option<string>)

  /** A constructed frame. `data` is `None` once the frame has been closed
      (the source sets it to `null`). */
  datatype VideoFrame = VideoFrame(
    data: Option<Bytes>,
    timestamp: int,
    duration: int,
    codedWidth: int,
    codedHeight: int,
    format: string,
    colorSpace: string)

  /** What the frame constructor accepts: a Buffer, an `init` whose timestamp
      is a number, and truthy coded dimensions. */
  predicate FrameArgsValid(data: Option<Bytes>, init: Option<FrameInit>) {
    && data.Some?
    && init.Some?
    && init.value.timestamp.Some?
    && TruthyNum(init.value.codedWidth)
    && TruthyNum(init.value.codedHeight)
  }

  /** The shape every constructed frame has, closed or not: non-zero coded
      dimensions and non-empty format and colour-space names. */
  predicate FrameShape(f: VideoFrame) {
    f.codedWidth != 0 && f.codedHeight != 0 && f.format != "" && f.colorSpace != ""
  }

  /** `new VideoFrame(data, init)`. The checks run in source order, so the
      first one that fails decides the exception. */
  function NewVideoFrame(data: Option<Bytes>, init: Option<FrameInit>): (r: Result<VideoFrame>)
    ensures r.Success? <==> FrameArgsValid(data, init)
    ensures data.None? ==> r == Failure(DataNotBuffer)
    ensures data.Some? && (init.None? || init.value.timestamp.None?) ==> r == Failure(TimestampRequired)
    ensures data.Some? && init.Some? && init.value.timestamp.Some?
            && !(TruthyNum(init.value.codedWidth) && TruthyNum(init.value.codedHeight))
            ==> r == Failure(CodedSizeRequired)
    ensures r.Success? ==>
              && FrameShape(r.value)
              && r.value.data == data
              && r.value.timestamp == init.value.timestamp.value
              && r.value.codedWidth == init.value.codedWidth.value
              && r.value.codedHeight == init.value.codedHeight.value
    // `duration`, `format` and `colorSpace` keep a truthy given value and
    // otherwise fall back to 0, 'I420' and 'bt709'
    ensures r.Success? && TruthyNum(init.value.duration) ==> r.value.duration == init.value.duration.value
    ensures r.Success? && !TruthyNum(init.value.duration) ==> r.value.duration == 0
    ensures r.Success? && TruthyStr(init.value.format) ==> r.value.format == init.value.format.value
    ensures r.Success? && !TruthyStr(init.value.format) ==> r.value.format == DefaultFormat
    ensures r.Success? && TruthyStr(init.value.colorSpace) ==> r.value.colorSpace == init.value.colorSpace.value
    ensures r.Success? && !TruthyStr(init.value.colorSpace) ==> r.value.colorSpace == DefaultColorSpace
  {
    if data.None? then Failure(DataNotBuffer)
    else if init.None? || init.value.timestamp.None? then Failure(TimestampRequired)
    else if !TruthyNum(init.value.codedWidth) || !TruthyNum(init.value.codedHeight) then Failure(CodedSizeRequired)
    else
      var i := init.value;
      Success(VideoFrame(
        data,
        i.timestamp.value,
        NumOr(i.duration, 0),
        i.codedWidth.value,
        i.codedHeight.value,
        StrOr(i.format, DefaultFormat),
        StrOr(i.colorSpace, DefaultColorSpace)))
  }

  /** The `init` dictionary that describes an existing frame. */
  function InitOf(f: VideoFrame): FrameInit {
    FrameInit(Some(f.timestamp), Some(f.duration), Some(f.codedWidth), Some(f.codedHeight),
              Some(f.format), Some(f.colorSpace))
  }

  /** Rebuilding an open frame from its own buffer and metadata gives the same
      frame back: the constructor loses nothing and its defaults never
      override a value the frame already has. */
  lemma FrameRoundTrip(f: VideoFrame)
    requires f.data.Some? && FrameShape(f)
    ensures NewVideoFrame(f.data, Some(InitOf(f))) == Success(f)
  {
    var r := NewVideoFrame(f.data, Some(InitOf(f)));
    assert r.Success?;
    if f.duration == 0 {
      assert r.value.duration == 0;
    }
  }

  /** `frame.close()`: drops the pixel buffer; every other property stays. */
  function Close(f: VideoFrame): (g: VideoFrame)
    ensures g.data.None?
    ensures g.timestamp == f.timestamp && g.duration == f.duration
    ensures g.codedWidth == f.codedWidth && g.codedHeight == f.codedHeight
    ensures g.format == f.format && g.colorSpace == f.colorSpace
  {
    f.(data := None)
  }

  /** Closing twice is the same as closing once, a closed frame keeps the
      shape the constructor gave it, and two frames that differ only in their
      buffers are equal once closed. */
  lemma CloseIdempotent(f: VideoFrame, g: VideoFrame)
    ensures Close(Close(f)) == Close(f)
    ensures FrameShape(Close(f)) <==> FrameShape(f)
    ensures Close(f) == Close(g) <==> f.(data := g.data) == g
  {
  }

  /** Sequence concatenation regroups freely. */
  lemma SeqAssoc<T>(a: seq<T>, b: seq<T>, c: seq<T>)
    ensures (a + b) + c == a + (b + c)
  {
  }

  // ---------------------------------------------------------------- chunks

  /** The `init` dictionary of `new EncodedVideoChunk(init)`; `kind` is the
      `type` property ('key' or 'delta' by convention). */
  datatype ChunkInit = ChunkInit(
    kind: Option<string>,
    timestamp: Option<int>,
    duration: Option<int>,
    data: Option<Bytes>)

  datatype EncodedChunk = EncodedChunk(
    kind: string,
    timestamp: int,
    duration: int,
    data: Bytes,
    byteLength: nat)

  /** The shape every constructed chunk has. */
  predicate ChunkShape(c: EncodedChunk) {
    c.kind != "" && c.byteLength == |c.data|
  }

  /** `new EncodedVideoChunk(init)`. A Buffer is always truthy, even an empty
      one, so only a missing `data` is rejected. */
  function NewEncodedChunk(init: Option<ChunkInit>): (r: Result<EncodedChunk>)
    ensures r.Success? <==> init.Some? && TruthyStr(init.value.kind) && init.value.data.Some?
    ensures r.Failure? ==> r.error == TypeAndDataRequired
    ensures r.Success? ==>
              && ChunkShape(r.value)
              && r.value.kind == init.value.kind.value
              && r.value.data == init.value.data.value
    ensures r.Success? ==> r.value.byteLength == |init.value.data.value|
    ensures r.Success? && TruthyNum(init.value.timestamp) ==> r.value.timestamp == init.value.timestamp.value
    ensures r.Success? && !TruthyNum(init.value.timestamp) ==> r.value.timestamp == 0
    ensures r.Success? && TruthyNum(init.value.duration) ==> r.value.duration == init.value.duration.value
    ensures r.Success? && !TruthyNum(init.value.duration) ==> r.value.duration == 0
  {
    if init.None? || !TruthyStr(init.value.kind) || init.value.data.None? then
      Failure(TypeAndDataRequired)
    else
      var i := init.value;
      Success(EncodedChunk(i.kind.value, NumOr(i.timestamp, 0), NumOr(i.duration, 0),
                           i.data.value, |i.data.value|))
  }

  function ChunkInitOf(c: EncodedChunk): ChunkInit {
    ChunkInit(Some(c.kind), Some(c.timestamp), Some(c.duration), Some(c.data))
  }

  /** Rebuilding a chunk from its own properties gives the same chunk back. */
  lemma ChunkRoundTrip(c: EncodedChunk)
    requires ChunkShape(c)
    ensures NewEncodedChunk(Some(ChunkInitOf(c))) == Success(c)
  {
    var r := NewEncodedChunk(Some(ChunkInitOf(c)));
    assert r.Success?;
    if c.timestamp == 0 { assert r.value.timestamp == 0; }
    if c.duration == 0 { assert r.value.duration == 0; }
  }

  // -------------------------------------------------------- buffer concat

  /** The bytes of `pieces` laid end to end, in order. */
  function Flatten(pieces: seq<Bytes>): Bytes {
    if |pieces| == 0 then [] else Flatten(pieces[..|pieces| - 1]) + pieces[|pieces| - 1]
  }

  function TotalLength(pieces: seq<Bytes>): nat {
    if |pieces| == 0 then 0 else TotalLength(pieces[..|pieces| - 1]) + |pieces[|pieces| - 1]|
  }

  /** Flattening distributes over concatenation of piece lists; in
      particular each piece's bytes appear at its arrival offset. */
  lemma {:induction false} FlattenAppend(a: seq<Bytes>, b: seq<Bytes>)
    ensures Flatten(a + b) == Flatten(a) + Flatten(b)
    ensures |Flatten(a + b)| == TotalLength(a + b)
    decreases |b|
  {
    if |b| == 0 {
      assert a + b == a;
      FlattenLength(a);
    } else {
      var b' := b[..|b| - 1];
      assert (a + b)[..|a + b| - 1] == a + b';
      FlattenAppend(a, b');
      FlattenLength(a + b);
    }
  }

  lemma {:induction false} FlattenLength(a: seq<Bytes>)
    ensures |Flatten(a)| == TotalLength(a)
  {
    if |a| > 0 {
      FlattenLength(a[..|a| - 1]);
    }
  }

  /** `Buffer.concat(pieces)`, as a loop over the pieces. */
  method ConcatBuffers(pieces: seq<Bytes>) returns (out: Bytes)
    ensures out == Flatten(pieces)
    ensures |out| == TotalLength(pieces)
  {
    out := [];
    var i := 0;
    while i < |pieces|
      invariant 0 <= i <= |pieces|
      invariant out == Flatten(pieces[..i])
    {
      assert pieces[..i + 1][..i] == pieces[..i];
      out := out + pieces[i];
      i := i + 1;
    }
    assert pieces[..i] == pieces;
    FlattenLength(pieces);
  }
}
